=== FILE: README.md ===
# ECoG chunk pipeline — a Dafny model

This project models the data path of the ECoG masked-autoencoder code base,
from an EDF recording to the tensors and masks a training step consumes:

- `ECoGDataset` in `ECoG-MAE/test_loader.py`. It streams a recording as
  two-second chunks. Each chunk is read, zero-padded to `2*fs` samples and
  placed on the 64-channel grid `G1..G64` by insert-and-shift (a zero row is
  inserted for every missing channel). It is then normalised (`sample`,
  `hour`, or none), band-pass filtered once per configured band, optionally
  enveloped, resampled to `2*new_fs` points and rearranged to
  `(bands, time, 1, 8, 8)`.
- The earlier `ECoGDataset` in `ECoG-MAE/loader.py`. It normalises before
  padding, has no zero-std guard and always takes the envelope.
- The `__iter__` cursor shared by both classes, and `ChainDataset` over
  several files.
- The pure parts of `dl_setup`:
  - the manifest subset `data[:int(len*data_size)]`;
  - `split_dataframe`;
  - the BIDS `subject` and `task` labels;
  - the advertised `num_train_samples`.
- The mask construction of a training or evaluation step in
  `ECoG-MAE/train.py`: the tube mask tiled over frames, and the decoder mask
  over the lowest-indexed non-tube positions. Also the electrode label of
  each grid cell.

Samples are reals; `Value` adds a `NonFinite` case for the nan/inf that a
division by a zero standard deviation produces. Python's `int()`
(truncation toward zero, applied to the exact real argument), slicing with negative bounds, `str`/zero-padded formatting
and `randperm`/`sample(frac=1)` permutations are modelled exactly in
`PyNum` and `Decimal`. The numerical kernels are fields of a `SignalOps`
record: the square root behind `np.std`, `sosfilt`, `hilbert` and
`resample`. Each kernel yields one output sample, so shapes hold by
construction. The only property assumed of the kernels is that a positive
variance has a positive square root.

Behaviour of the modelled code worth noting, some of it at odds with what
the repository's own tests (`tests/test_data_loader.py`, written against a
later loader API) expect:

- A missing channel is filled with zeros (`test_loader.py:192`), while
  `tests/test_data_loader.py:59` expects a NaN fill.
- Channels are placed by insert-and-shift (`test_loader.py:186-195`), not
  by looking names up.
- Chunks are streamed while `index < Duration/2` (`test_loader.py:153`), so
  there are `ceil(Duration/2)` of them and the last is zero-padded when
  `Duration/2` is fractional; `tests/test_data_loader.py:67-78` expects a
  short trailing piece to be dropped instead.
- The cursor resets only on exact equality with `Duration/2`
  (`test_loader.py:157`).
- Normalisation subtracts `mean/std` (`test_loader.py:203`), which is not a
  z-score.
- A bad band edge surfaces when a chunk is produced (`butter` raises inside
  `sample_data`, `test_loader.py:223`).
- The output keeps its depth axis of size 1 (`test_loader.py:255`).

`hour` mode takes its statistics from file signals 0 to 63
(`get_signal_stats`, `test_loader.py:272-280`). The chunk itself is read
from signals 1 to 64 (`picks = linspace(1, 64, 64)`, `test_loader.py:165`).
The model keeps both index ranges. `TestLoader.AllPresentRow` and
`Normalise.HourUsesFileStats` state the resulting offset: grid row `ch`
holds file signal `ch + 1`, but is shifted by the statistics of file
signal `ch`.

## Model

| member | source | states |
|---|---|---|
| PyNum.PermutePreservesMultiset | ECoG-MAE/test_loader.py:299-300 | reordering rows by a permutation (`df.sample(frac=1)`) keeps every row with its multiplicity |
| Decimal.ValueOfDigits | ECoG-MAE/test_loader.py:187 | `int(str(n)) == n`: the decimal spelling used for channel names reads back to the number |
| Decimal.DigitsInjective | ECoG-MAE/test_loader.py:187 | different numbers have different decimal spellings |
| Decimal.ZeroPad | ECoG-MAE/test_loader.py:366-367 | `f"{n:0wd}"` is all digits, has length `max(width, len(str(n)))` (padding never truncates) and reads back to `n` |
| Decimal.ZeroPadEndsWithDigits | ECoG-MAE/test_loader.py:366-367 | the padded label ends with the unpadded `str(n)` |
| Signal.ZeroRowHasNoVariance | ECoG-MAE/test_loader.py:192-201 | an inserted zero row has mean 0 and standard deviation 0, so the zero-std guard skips it |
| Chunking.ReadWindow | ECoG-MAE/test_loader.py:172-176 | the read of `[start, start+n)` has 64 rows of equal length: `n` inside the recording, the remainder when the window runs over the end (empty rows for a window that starts at or past the end, which no pass reaches); sample `t` is recording sample `start+t` |
| Chunking.PadChunk | ECoG-MAE/test_loader.py:178-181 | a short read is right-padded to exactly `n` columns; the read prefix is unchanged and the tail is zero |
| Chunking.FullWindow | ECoG-MAE/test_loader.py:178-181 | a window inside the recording is read in full and padding leaves it unchanged |
| GridMap.ChannelNameInjective | ECoG-MAE/test_loader.py:186-187 | the 64 canonical names `"G" + str(i+1)` are pairwise different |
| GridMap.InsertMissing | ECoG-MAE/test_loader.py:186-195 | the insert-and-shift loop followed by `sig[:64]` yields the closed-form grid: row `i` is zero if `G{i+1}` is missing, else input row number `#present names among G1..Gi` |
| GridMap.GridIdentity | ECoG-MAE/test_loader.py:186-195 | with every canonical channel present the grid is the input unchanged |
| GridMap.GridKeepsOrder | ECoG-MAE/test_loader.py:186-195 | two present channels take input rows in the same relative order |
| GridMap.GridKeepsLeadingRows | ECoG-MAE/test_loader.py:186-195 | every input row below the present count appears in the grid; only the last `#missing` rows are dropped by the cut |
| GridMap.GridZeroIffMissing | ECoG-MAE/test_loader.py:186-195 | when no input row is zero, a grid row is the zero row exactly when its channel is missing |
| Normalise.ParseNorm | ECoG-MAE/test_loader.py:198-204 | `"sample"` and `"hour"` select their modes, both directions; any other string normalises nothing |
| Normalise.SignalStats | ECoG-MAE/test_loader.py:265-282 | `get_signal_stats` gives 64 entries; 58, 59, 60 are the int zeros, every other one holds the mean and std of the file signal with the same index |
| Normalise.NormaliseSampleRow | ECoG-MAE/test_loader.py:198-203 | a zero-std row is left as it is; otherwise the constant `mean/std` is subtracted from every sample; all pairwise differences are kept |
| Normalise.NormaliseHourRow | ECoG-MAE/test_loader.py:204-210 | a zero-std chunk row is skipped; otherwise the row is shifted by the recording's `means[ch]/stds[ch]`; it fails with ZeroDivision exactly when the row varies and the stats are the int zeros; a float std of 0 gives non-finite samples |
| Normalise.HourRows | ECoG-MAE/test_loader.py:206-210 | `hour` mode succeeds exactly when no channel fails; otherwise the error names the first failing channel in loop order |
| Normalise.NormaliseChunk | ECoG-MAE/test_loader.py:197-210 | only `hour` mode can fail, and only on a channel with int-zero statistics (one of 58-60 for real statistics); zero-std rows come through unchanged; `sample` output is finite |
| Normalise.HourUsesFileStats | ECoG-MAE/test_loader.py:272-280 | in `hour` mode a live channel `ch` is shifted by the mean and std of file signal `ch` |
| Normalise.NormaliseUnguardedRow | ECoG-MAE/loader.py:57-58 | without a guard a constant row becomes non-finite throughout; otherwise each sample loses `mean/std` |
| Assembly.DesignBand | ECoG-MAE/test_loader.py:213-223 | a band is accepted exactly when both edges lie strictly between 0 and `0.5*fs`, that is when both normalised edges lie in (0, 1); otherwise the error names the band; the accepted edges are the given ones divided by the Nyquist rate |
| Assembly.FilterBank | ECoG-MAE/test_loader.py:214-226 | the bank has one filtered copy of the chunk per band when every band is in range; otherwise the error names the first bad band |
| Assembly.Assemble | ECoG-MAE/test_loader.py:254-256 | the result has shape `(c, t, 1, 8, 8)` and cell `[c][i][0][h][w]` is channel `8h+w` at time `i` |
| Assembly.Disassemble | ECoG-MAE/test_loader.py:254-256 | the inverse permute gives channel `k` at time `i` from cell `(k/8, k%8)` |
| Assembly.DisassembleAssemble | ECoG-MAE/test_loader.py:254-256 | undoing the rearrange recovers the `c (h w) t` array |
| Assembly.AssembleDisassemble | ECoG-MAE/test_loader.py:254-256 | the rearrange is onto: every `(c, t, 1, 8, 8)` tensor is the rearrange of its inverse |
| Assembly.Stage | ECoG-MAE/test_loader.py:228-244 | every banded channel is enveloped when `env` is set and resampled to `m` points, in both branches |
| Assembly.BandTensor | ECoG-MAE/test_loader.py:212-256 | the tensor exists exactly when the band list is non-empty, every band is in range and `m > 0`, and then has shape `(len(bands), m, 1, 8, 8)`; otherwise the first bad band, the empty list, or (for usable bands only) the rejected target length 0 is reported |
| Assembly.BandTensorCells | ECoG-MAE/test_loader.py:212-256 | band `c` of cell `(h, w)` is channel `8h+w` filtered with `bands[c]`, enveloped if asked, and resampled |
| Iteration.StopIndex | ECoG-MAE/test_loader.py:153 | the loop `while index < max_samples` stops at the first index not below the bound, or at once if already past it |
| Iteration.Iterate | ECoG-MAE/test_loader.py:151-158 | one complete pass yields `index, index+1, …` up to the stop index; the cursor is reset to 0 only if it stops exactly on `max_samples` |
| Iteration.FreshPass | ECoG-MAE/test_loader.py:146-155 | from a fresh dataset a pass yields chunks `0 .. ceil(Duration/2) - 1` |
| Iteration.ResetIffIntegral | ECoG-MAE/test_loader.py:157-158 | after the first pass the cursor is back at 0 exactly when `Duration/2` is whole |
| Iteration.IntegralBoundRestarts | ECoG-MAE/test_loader.py:157-158 | with a whole `Duration/2` the state after a pass equals the fresh state |
| Iteration.FractionalBoundSticks | ECoG-MAE/test_loader.py:151-158 | with a fractional `Duration/2` the cursor stays at `ceil(Duration/2)`; every later pass yields nothing and changes nothing |
| Iteration.PassIndexBelowBound | ECoG-MAE/test_loader.py:153 | every index a fresh pass yields is below `Duration/2` |
| Iteration.ChainYield | ECoG-MAE/test_loader.py:387-389 | each chained item names a member and one of that member's pass indices |
| Iteration.ChainYieldInOrder | ECoG-MAE/test_loader.py:387-389 | `ChainDataset` exhausts its members one after the other: items come ordered by member, then by chunk index, and every chunk of every member's pass appears |
| Iteration.ChainYieldLength | ECoG-MAE/test_loader.py:387-389 | a chained pass yields the sum of the members' pass lengths |
| Iteration.ChainSecondPass | ECoG-MAE/test_loader.py:389 | over fresh members the second chained pass repeats the first when every bound is whole; members with fractional bounds contribute nothing to it |
| Manifest.SubsetManifest | ECoG-MAE/test_loader.py:346 | the subset is a prefix of the manifest; for `data_size` in [0, 1] it has `int(len*data_size)` rows; for `data_size >= 1` it is the whole manifest |
| Manifest.SplitDataframe | ECoG-MAE/test_loader.py:285-309 | the train part followed by the test part is the (shuffled, if `args.shuffle`) manifest; the train part has `int(ratio*len)` rows, sliced as Python does |
| Manifest.SplitDataframeLoader | ECoG-MAE/loader.py:138-147 | loader.py always shuffles and `dl_setup` cuts at ratio 0.9 |
| Manifest.SplitPartitions | ECoG-MAE/test_loader.py:299-309 | the two parts together hold every manifest row exactly as often as the manifest does |
| Manifest.SplitSizes | ECoG-MAE/test_loader.py:303-307 | for a ratio in [0, 1] the parts have `int(ratio*len)` and `len - int(ratio*len)` rows |
| Manifest.SubjectLabel | ECoG-MAE/test_loader.py:366 | the subject label is at least two digits and reads back to the subject |
| Manifest.TaskLabelRoundTrip | ECoG-MAE/test_loader.py:367 | `part{task:03d}chunk{chunk:02d}` parses back to the task and chunk it was built from |
| Manifest.LabelsInjective | ECoG-MAE/test_loader.py:362-371 | two manifest rows with equal subject and task labels are the same row, so no two datasets name the same file |
| Manifest.NumTrainSamplesBound | ECoG-MAE/test_loader.py:377-385 | the floor-summed `num_train_samples` never exceeds what the chained first pass streams, and equals it exactly when every `Duration/2` is whole |
| Masking.MarkCount | ECoG-MAE/train.py:96 | setting distinct in-range indices to True gives exactly that many True entries |
| Masking.BaseTubeMask | ECoG-MAE/train.py:89-96 | the per-frame mask has length `num_patches // num_frames` and `min(k, L)` True entries for `k >= 0` (Python slicing otherwise) |
| Masking.Tile | ECoG-MAE/train.py:97 | tiling over `num_frames` frames multiplies the length by `num_frames` |
| Masking.TileIndex | ECoG-MAE/train.py:97 | entry `r` of frame `q` of the tiled mask is entry `r` of the base mask |
| Masking.TilePeriodic | ECoG-MAE/train.py:97 | the tube mask is periodic with period `num_patches // num_frames` |
| Masking.TileCount | ECoG-MAE/train.py:97 | the tube mask has `num_frames` times the base mask's True entries |
| Masking.Falses | ECoG-MAE/train.py:101 | `(~m).nonzero()` lists every False position of the mask, once each, in increasing order |
| Masking.DecoderDisjoint | ECoG-MAE/train.py:100-108 | the decoder mask never selects a tube position, nor one past the tube mask's end |
| Masking.DecoderTakesLowest | ECoG-MAE/train.py:101-108 | below a selected decoder position every non-tube position is selected too |
| Masking.DecoderCount | ECoG-MAE/train.py:105-108 | the decoder mask selects `min(d, #False in the tube mask)` positions for `d >= 0` |
| Masking.BuildMasks | ECoG-MAE/train.py:89-108 | the masks of one step, built by the same rule in the evaluation loop (train.py:191-210): tube length `num_frames * (num_patches // num_frames)`, its True count, and disjointness from the decoder mask |
| Masking.ElectrodeLabels | ECoG-MAE/train.py:144-149 | the `(h, w)` loop with its running counter labels cell `(h, w)` `"G" + str(8h+w+1)` |
| Masking.LabelMatchesCell | ECoG-MAE/train.py:144-149 | distinct cells carry distinct labels, and the label of `(h, w)` names the channel the rearrange puts in that cell |
| TestLoader.Picks | ECoG-MAE/test_loader.py:165-176 | the chunk is read from file signals 1 to 64 |
| TestLoader.RawGrid | ECoG-MAE/test_loader.py:167-195 | before normalisation the grid is 64 rows of exactly `2*fs` samples |
| TestLoader.RawGridCells | ECoG-MAE/test_loader.py:172-195 | a missing channel is zero; a present one holds the recording samples of its input row while the read lasts, then zeros |
| TestLoader.AllPresentRow | ECoG-MAE/test_loader.py:165-195 | with every channel present, grid row `ch` holds file signal `ch + 1` |
| TestLoader.NormalisedGrid | ECoG-MAE/test_loader.py:197-210 | the normalised grid keeps its shape; only `hour` mode can fail, on a dead channel |
| TestLoader.MissingChannelStaysZero | ECoG-MAE/test_loader.py:190-203 | an inserted row stays all zeros and finite in every mode |
| TestLoader.SampleModeKeepsDifferences | ECoG-MAE/test_loader.py:198-203 | `sample` mode keeps every difference between two samples of a grid row |
| TestLoader.SampleData | ECoG-MAE/test_loader.py:160-262 | the sample has shape `(len(bands), 2*new_fs, 1, 8, 8)`; outside `hour` mode it exists exactly when the bands are usable and `new_fs > 0`; a ZeroDivision arises only in `hour` mode on channels 58-60, and a rejected resample only for usable bands with `new_fs = 0` |
| TestLoader.SampleDataCells | ECoG-MAE/test_loader.py:212-256 | cell `(h, w)` of band `c` is normalised grid row `8h+w` after that band's stages |
| TestLoader.PassWindows | ECoG-MAE/test_loader.py:146-181 | every chunk of a fresh pass starts inside a recording of `fs*Duration` samples; its window is short exactly when `index+1 > Duration/2`, so none is short for a whole `Duration/2` and the last one is for a fractional one |
| Loader.NormalisedRead | ECoG-MAE/loader.py:48-58 | loader.py normalises each row of the read with that row's own statistics, before padding |
| Loader.LoaderGrid | ECoG-MAE/loader.py:60-77 | the padded, grid-placed chunk has 64 rows of `2*fs` samples |
| Loader.LoaderGridCell | ECoG-MAE/loader.py:54-77 | a read sample of a present channel is that channel's normalised sample, and every other cell is a zero added after normalising |
| Loader.LoaderGridCells | ECoG-MAE/loader.py:54-77 | padding and inserted rows are plain zeros; a read sample is shifted by its row's `mean/std`, or is non-finite when the row is constant |
| Loader.LoaderSampleData | ECoG-MAE/loader.py:35-114 | the envelope tensor has shape `(len(bands), 2*new_fs, 1, 8, 8)` exactly when the bands are usable and `new_fs > 0`; it never fails with ZeroDivision, and a rejected resample only for usable bands with `new_fs = 0` |
| Loader.LoaderSampleDataCells | ECoG-MAE/loader.py:79-114 | cell `(h, w)` of band `c` is loader grid row `8h+w` after that band's filter, the envelope (always taken) and the resampling, placed by the rearrange |
| Loader.ConstantRowDiffers | ECoG-MAE/loader.py:57-58 | a constant read row becomes non-finite in loader.py; for a full window, `sample` mode in test_loader.py (which pads, then normalises) leaves that grid row unchanged |
| Normalise.DeadChannelDiscrepancy | ECoG-MAE/test_loader.py:204-210 | as written, `hour` mode raises on dead channel 58 for the chunk row `[0, 1]`; the guarded variant leaves it unchanged |
| Normalise.NormaliseHourRowGuarded | ECoG-MAE/test_loader.py:204-210 | corrected `hour` row: never fails and is always finite; it skips rows without usable statistics and keeps pairwise differences |
| Iteration.StuckAfterPartialPass | ECoG-MAE/test_loader.py:153-158 | as written, a 3-second recording yields chunks 0 and 1 once and nothing in any later pass |
| Iteration.CorrectedPassRepeats | ECoG-MAE/test_loader.py:156-158 | with the reset `index >= max_samples` every pass from fresh yields the same `ceil(Duration/2)` chunks |

## Left out
- Chunking.ReadWindow: a window that starts at or past the recording's end yields empty rows, so RawGrid and SampleData give an all-zero chunk where MNE's `get_data` raises `ValueError` ("No data in this range"). TestLoader.PassWindows proves that no pass from a fresh dataset asks for such a window.
- Loader.ConstantRowDiffers: its test_loader.py half is promised for a full window only; a short constant read is padded with zeros first, so its row is in general no longer constant and gets shifted.
- File access is not modelled: `mne.io.read_raw`, `get_data`,
  `read_edf_header`, `pyedflib.EdfReader` and `BIDSPath.fpath`. The signals,
  channel names and `Duration` are parameters (`EdfFile`, `durations`), and
  the file path is represented only by its two BIDS labels.
- The `scipy.signal` numerics (`butter`/`sosfilt`, `hilbert`, `resample`) and
  the square root of `np.std` are abstract kernels in `SignalOps`. Floating
  point rounding and the `float32` cast are not modelled: samples are reals,
  and a zero standard deviation means an exactly zero variance.
- Manifest.SubsetManifest, Manifest.SplitDataframe, Manifest.SplitSizes and
  Masking.BaseTubeMask truncate the exact real products `len*data_size`,
  `ratio*len` and `num_patches/num_frames*(1-tube_mask_ratio)` (and
  Masking.BuildMasks likewise `num_patches*(1-decoder_mask_ratio)`). CPython
  truncates the rounded double product, which can differ next to an
  integer: for the double nearest 0.7 and 10 rows Python cuts at 7, the
  exact product at 6.
- Assembly.DesignBand: only the `0 < Wn < 1` check of `butter` is modelled.
  The `low < high` ordering check of newer scipy versions is not, since the
  scipy version is not fixed.
- `CustomImageDataset` (`test_loader.py:16-133`) is not part of this model.
- torch `DataLoader` batching and workers, the CSV writes of `dl_setup`, and
  timing calls are not modelled.
- Partial consumption of the generator is not modelled. `Iteration.Iterate`
  models one pass that runs to completion.
- `randperm` and `df.sample` are not random here: their permutation is a
  parameter, and every permutation is allowed.
- In `train.py` the model forward/backward pass, the MSE loss, the Pearson
  correlation and plotting are not modelled.
- `config.py`, `parser.py`, `plot.py`, `main.py`, `ECoG_MAE/encoding_main.py`
  and `tests/test_data_loader.py` are not modelled. The last tests an API
  that the modelled code does not have.
- Masking.BuildMasks requires `num_frames > 0`. The source raises
  ZeroDivisionError at `train.py:90` otherwise, and the model does not
  represent that crash.
- TestLoader.SampleData requires `fs > 0` and a file with at least 65
  signals of equal length. `dl_setup` fixes `fs = 512`. A shorter file makes
  the reads fail in the libraries, which is not modelled.
- Manifest.NumTrainSamplesBound is stated for non-negative durations only.

## Findings

| source | as written | input that shows it | evidently intended | confidence | as-written member | corrected member |
|---|---|---|---|---|---|---|
| ECoG-MAE/test_loader.py:157-158 | the cursor is reset only when `index == max_samples`, with `max_samples = Duration/2` a float | `Duration = 3.0`: the first pass yields chunks 0 and 1 and stops at index 2 ≠ 1.5; every later epoch streams nothing from this file (same code at `loader.py:32-33`) | reset after every complete pass, so each epoch streams the file again (the comment at line 156 says so) | high; not executed | Iteration.StuckAfterPartialPass | Iteration.CorrectedPassRepeats |
| ECoG-MAE/test_loader.py:204-210 | `hour` mode divides `means[ch]` by `stds[ch]`, which `get_signal_stats` sets to the int 0 for channels 58-60 | a chunk whose grid row 58 is `[0.0, 1.0]`: its std is non-zero, so the guard does not skip it and `0 / 0` raises ZeroDivisionError | channels without statistics are skipped like zero-std rows | medium; not executed | Normalise.DeadChannelDiscrepancy | Normalise.NormaliseHourRowGuarded |

=== FILE: assembly.dfy ===
/** From a normalised 64-channel chunk to the output tensor: one band-pass
    filtered copy per configured band, an optional Hilbert envelope,
    resampling of the time axis, and the `c (h w) t -> c t () h w` rearrange. */
module Assembly {
  import opened Results
  import opened Signal

  /** A configured `(lowcut, highcut)` pair in Hz. */
  datatype Band = Band(low: real, high: real)

  /** Band edges divided by the Nyquist rate, as handed to `butter`. */
  datatype NormBand = NormBand(low: real, high: real)

  function Nyquist(fs: nat): real {
    0.5 * fs as real
  }

  /** `scipy.signal.butter` accepts a digital band only with both normalised
      edges strictly inside (0, 1), that is both edges strictly between 0 Hz
      and the Nyquist rate. */
  predicate BandInRange(b: Band, fs: nat) {
    0.0 < b.low < Nyquist(fs) && 0.0 < b.high < Nyquist(fs)
  }

  /** A band list that gets through the filter bank and the axis-2 transforms. */
  predicate BandsUsable(bands: seq<Band>, fs: nat) {
    |bands| > 0 && forall b | 0 <= b < |bands| :: BandInRange(bands[b], fs)
  }

  lemma ScaleKeepsOrder(x: real, y: real, d: real)
    requires 0.0 < d
    ensures x < y <==> x * d < y * d
  {
    if x < y {
      assert (y - x) * d > 0.0;
    } else {
      assert (x - y) * d >= 0.0;
    }
  }

  lemma QuotientBounds(a: real, d: real)
    requires 0.0 < d
    ensures 0.0 < a / d <==> 0.0 < a
    ensures a / d < 1.0 <==> a < d
  {
    var q := a / d;
    assert q * d == a;
    ScaleKeepsOrder(0.0, q, d);
    ScaleKeepsOrder(q, 1.0, d);
  }

  /** `low = lowcut / nyq`, `high = highcut / nyq`, then the filter design. */
  function DesignBand(b: Band, fs: nat, index: nat): (r: Result<NormBand>)
    requires fs > 0
    ensures r.Ok? <==> BandInRange(b, fs)
    ensures r.Err? ==> r.error == BadBand(index)
    ensures r.Ok? ==> 0.0 < r.value.low < 1.0 && 0.0 < r.value.high < 1.0
    ensures r.Ok? ==> r.value.low * Nyquist(fs) == b.low && r.value.high * Nyquist(fs) == b.high
  {
    var nyq := Nyquist(fs);
    var low := b.low / nyq;
    var high := b.high / nyq;
    QuotientBounds(b.low, nyq);
    QuotientBounds(b.high, nyq);
    if 0.0 < low < 1.0 && 0.0 < high < 1.0 then Ok(NormBand(low, high)) else Err(BadBand(index))
  }

  /** `x` has shape `(a, b, c)`. */
  predicate IsCube<T>(x: seq<seq<seq<T>>>, a: nat, b: nat, c: nat) {
    |x| == a && forall i | 0 <= i < a :: |x[i]| == b && forall j | 0 <= j < b :: |x[i][j]| == c
  }

  /** `y` has shape `(c, t, 1, 8, 8)`. */
  predicate IsTensor<T>(y: seq<seq<seq<seq<seq<T>>>>>, c: nat, t: nat) {
    |y| == c && forall i | 0 <= i < c :: |y[i]| == t && forall j | 0 <= j < t ::
      |y[i][j]| == 1 && |y[i][j][0]| == 8 && forall h | 0 <= h < 8 :: |y[i][j][0][h]| == 8
  }

  /** `sosfilt(butter(4, [low, high]), row)` along time. */
  function FilterRow(ops: SignalOps, nb: NormBand, row: seq<Value>): (r: seq<Value>)
    ensures |r| == |row|
    ensures forall t | 0 <= t < |row| :: r[t] == ops.filter(nb.low, nb.high, row, t)
  {
    seq(|row|, t requires 0 <= t < |row| => ops.filter(nb.low, nb.high, row, t))
  }

  /** `np.abs(hilbert(row))`. */
  function EnvelopeRow(ops: SignalOps, row: seq<Value>): (r: seq<Value>)
    ensures |r| == |row|
    ensures forall t | 0 <= t < |row| :: r[t] == ops.envelope(row, t)
  {
    seq(|row|, t requires 0 <= t < |row| => ops.envelope(row, t))
  }

  /** `scipy.signal.resample(row, m)`. */
  function ResampleRow(ops: SignalOps, row: seq<Value>, m: nat): (r: seq<Value>)
    ensures |r| == m
    ensures forall t | 0 <= t < m :: r[t] == ops.resample(row, m, t)
  {
    seq(m, t requires 0 <= t < m => ops.resample(row, m, t))
  }

  /** The filter bank in loop order: band `b` filters every channel with the
      edges of `bands[b]`; the first band outside (0, Nyquist) aborts. */
  function FilterBank(ops: SignalOps, fs: nat, bands: seq<Band>, chunk: seq<seq<Value>>)
    : (r: Result<seq<seq<seq<Value>>>>)
    requires fs > 0
    ensures r.Ok? <==> forall b | 0 <= b < |bands| :: BandInRange(bands[b], fs)
    ensures r.Err? ==>
              && r.error.BadBand? && r.error.band < |bands|
              && !BandInRange(bands[r.error.band], fs)
              && forall b | 0 <= b < r.error.band :: BandInRange(bands[b], fs)
    ensures r.Ok? ==> |r.value| == |bands|
    ensures r.Ok? ==> forall b | 0 <= b < |bands| :: |r.value[b]| == |chunk|
    ensures r.Ok? ==> forall b, k | 0 <= b < |bands| && 0 <= k < |chunk| ::
              r.value[b][k] == FilterRow(ops, NormBand(bands[b].low / Nyquist(fs), bands[b].high / Nyquist(fs)), chunk[k])
  {
    if |bands| == 0 then Ok([])
    else
      var last := |bands| - 1;
      assert forall b | 0 <= b < last :: bands[..last][b] == bands[b];
      var init := FilterBank(ops, fs, bands[..last], chunk);
      if init.Err? then Err(init.error)
      else
        var nb := DesignBand(bands[last], fs, last);
        if nb.Err? then Err(nb.error)
        else
          var banded := seq(|chunk|, k requires 0 <= k < |chunk| => FilterRow(ops, nb.value, chunk[k]));
          assert nb.value == NormBand(bands[last].low / Nyquist(fs), bands[last].high / Nyquist(fs));
          Ok(init.value + [banded])
  }

  /** One channel of one band after the optional envelope and the resampling. */
  function StageRow(ops: SignalOps, fs: nat, band: Band, env: bool, row: seq<Value>, m: nat): (r: seq<Value>)
    requires fs > 0
    ensures |r| == m
  {
    var f := FilterRow(ops, NormBand(band.low / Nyquist(fs), band.high / Nyquist(fs)), row);
    ResampleRow(ops, if env then EnvelopeRow(ops, f) else f, m)
  }

  /** `rearrange(x, "c (h w) t -> c t () h w", h=8, w=8)`. */
  function Assemble<T>(x: seq<seq<seq<T>>>, t: nat): (y: seq<seq<seq<seq<seq<T>>>>>)
    requires IsCube(x, |x|, 64, t)
    ensures IsTensor(y, |x|, t)
    ensures forall c, i, h, w | 0 <= c < |x| && 0 <= i < t && 0 <= h < 8 && 0 <= w < 8 ::
              y[c][i][0][h][w] == x[c][8 * h + w][i]
  {
    seq(|x|, c requires 0 <= c < |x| =>
      seq(t, i requires 0 <= i < t =>
        [seq(8, h requires 0 <= h < 8 =>
          seq(8, w requires 0 <= w < 8 => x[c][8 * h + w][i]))]))
  }

  /** The inverse permute `c t () h w -> c (h w) t`. */
  function Disassemble<T>(y: seq<seq<seq<seq<seq<T>>>>>, t: nat): (x: seq<seq<seq<T>>>)
    requires IsTensor(y, |y|, t)
    ensures IsCube(x, |y|, 64, t)
    ensures forall c, k, i | 0 <= c < |y| && 0 <= k < 64 && 0 <= i < t ::
              x[c][k][i] == y[c][i][0][k / 8][k % 8]
  {
    seq(|y|, c requires 0 <= c < |y| =>
      seq(64, k requires 0 <= k < 64 =>
        seq(t, i requires 0 <= i < t => y[c][i][0][k / 8][k % 8])))
  }

  /** Channel `k` sits at grid cell `(k / 8, k % 8)`, row-major. */
  lemma CellOfChannel(h: nat, w: nat)
    requires w < 8
    ensures (8 * h + w) / 8 == h && (8 * h + w) % 8 == w
  {
  }

  lemma DisassembleAssemble<T>(x: seq<seq<seq<T>>>, t: nat)
    requires IsCube(x, |x|, 64, t)
    ensures Disassemble(Assemble(x, t), t) == x
  {
    var z := Disassemble(Assemble(x, t), t);
    forall c | 0 <= c < |x|
      ensures z[c] == x[c]
    {
      forall k | 0 <= k < 64
        ensures z[c][k] == x[c][k]
      {
        assert 8 * (k / 8) + k % 8 == k;
      }
    }
  }

  lemma AssembleDisassemble<T>(y: seq<seq<seq<seq<seq<T>>>>>, t: nat)
    requires IsTensor(y, |y|, t)
    ensures Assemble(Disassemble(y, t), t) == y
  {
    var z := Assemble(Disassemble(y, t), t);
    forall c, i | 0 <= c < |y| && 0 <= i < t
      ensures z[c][i] == y[c][i]
    {
      forall h, w | 0 <= h < 8 && 0 <= w < 8
        ensures z[c][i][0][h][w] == y[c][i][0][h][w]
      {
        CellOfChannel(h, w);
      }
      forall h | 0 <= h < 8
        ensures z[c][i][0][h] == y[c][i][0][h]
      {
      }
      assert z[c][i][0] == y[c][i][0];
    }
    forall c | 0 <= c < |y|
      ensures z[c] == y[c]
    {
    }
  }

  /** Envelope (when `env`) and resampling of every row of a filtered bank. */
  function Stage(ops: SignalOps, bank: seq<seq<seq<Value>>>, env: bool, m: nat): (s: seq<seq<seq<Value>>>)
    requires forall c | 0 <= c < |bank| :: |bank[c]| == 64
    ensures IsCube(s, |bank|, 64, m)
    ensures forall c, k | 0 <= c < |bank| && 0 <= k < 64 ::
              s[c][k] == ResampleRow(ops, if env then EnvelopeRow(ops, bank[c][k]) else bank[c][k], m)
  {
    seq(|bank|, c requires 0 <= c < |bank| =>
      seq(64, k requires 0 <= k < 64 =>
        ResampleRow(ops, if env then EnvelopeRow(ops, bank[c][k]) else bank[c][k], m)))
  }

  /** The back half shared by both loaders: filter bank, optional envelope,
      resampling to `m` points, rearrange. The filter design runs first, so
      a bad band is reported before a target length of 0 is. */
  function BandTensor(ops: SignalOps, fs: nat, bands: seq<Band>, env: bool, chunk: seq<seq<Value>>, m: nat)
    : (r: Result<seq<seq<seq<seq<seq<Value>>>>>>)
    requires fs > 0 && |chunk| == 64
    ensures r.Ok? <==> BandsUsable(bands, fs) && m > 0
    ensures r.Err? ==> (r.error == EmptyResample <==> BandsUsable(bands, fs))
    ensures r.Err? && |bands| > 0 && !BandsUsable(bands, fs) ==>
              r.error.BadBand? && r.error.band < |bands| && !BandInRange(bands[r.error.band], fs)
              && forall b | 0 <= b < r.error.band :: BandInRange(bands[b], fs)
    ensures r.Err? && |bands| == 0 ==> r.error == NoBands
    ensures r.Ok? ==> IsTensor(r.value, |bands|, m)
  {
    var bank :- FilterBank(ops, fs, bands, chunk);
    if |bank| == 0 then Err(NoBands)
    else if m == 0 then Err(EmptyResample)
    else Ok(Assemble(Stage(ops, bank, env, m), m))
  }

  /** Band `c` of grid cell `(h, w)` is channel `8h + w` filtered with
      `bands[c]` (edges over the Nyquist rate), enveloped when `env`, and
      resampled to `m` points. */
  lemma BandTensorCells(ops: SignalOps, fs: nat, bands: seq<Band>, env: bool, chunk: seq<seq<Value>>, m: nat)
    requires fs > 0 && |chunk| == 64 && BandsUsable(bands, fs)
    ensures forall c, i, h, w | 0 <= c < |bands| && 0 <= i < m && 0 <= h < 8 && 0 <= w < 8 ::
              BandTensor(ops, fs, bands, env, chunk, m).value[c][i][0][h][w]
              == StageRow(ops, fs, bands[c], env, chunk[8 * h + w], m)[i]
  {
    if m > 0 {
      var bank := FilterBank(ops, fs, bands, chunk).value;
      var staged := Stage(ops, bank, env, m);
      assert BandTensor(ops, fs, bands, env, chunk, m).value == Assemble(staged, m);
      forall c, k | 0 <= c < |bands| && 0 <= k < 64
        ensures staged[c][k] == StageRow(ops, fs, bands[c], env, chunk[k], m)
      {
      }
    }
  }
}

=== FILE: chunking.dfy ===
/** The chunk window `[n * index, n * (index + 1))` read from a recording, and
    the zero padding of a short read. */
module Chunking {
  import opened PyNum
  import opened Signal

  /** Every row of `m` has `cols` samples. */
  predicate IsMatrix<T>(m: seq<seq<T>>, rows: nat, cols: nat) {
    |m| == rows && forall r | 0 <= r < rows :: |m[r]| == cols
  }

  /** The 64 traces `get_data` returns for the whole recording, all of one length. */
  predicate IsRecording(rec: seq<seq<real>>) {
    |rec| == 64 && IsMatrix(rec, 64, |rec[0]|)
  }

  function NumSamples(rec: seq<seq<real>>): nat
    requires IsRecording(rec)
  {
    |rec[0]|
  }

  /** First sample of chunk `index` when chunks are `n` samples long. */
  function WindowStart(n: nat, index: nat): nat {
    n * index
  }

  /** `get_data(start=n*index, stop=n*(index+1))`, with `start` the first
      sample of the window: the part of the window that lies inside the
      recording. A window that runs over the end returns fewer samples, not
      an error. A window that starts at or past the end returns empty rows
      here, although `get_data` raises for it; no pass reaches such a window. */
  function ReadWindow(rec: seq<seq<real>>, start: nat, n: nat): (w: seq<seq<real>>)
    requires IsRecording(rec)
    ensures |w| == 64 && IsMatrix(w, 64, |w[0]|) && |w[0]| <= n
    ensures |w[0]| == if start + n <= NumSamples(rec) then n
                      else if start <= NumSamples(rec) then NumSamples(rec) - start
                      else 0
    ensures forall r, t | 0 <= r < 64 && 0 <= t < |w[r]| :: w[r][t] == rec[r][start + t]
  {
    var len := NumSamples(rec);
    var lo := Min(start, len);
    var hi := Min(start + n, len);
    var w := seq(64, r requires 0 <= r < 64 => rec[r][lo..hi]);
    assert forall r | 0 <= r < 64 :: w[r] == rec[r][lo..hi];
    w
  }

  /** Right-pads every row with `zero` up to `n` columns when row 0 is short
      (`np.concatenate` with an `np.zeros` block). */
  function PadChunk<T>(w: seq<seq<T>>, n: nat, zero: T): (p: seq<seq<T>>)
    requires 1 <= |w| && IsMatrix(w, |w|, |w[0]|) && |w[0]| <= n
    ensures IsMatrix(p, |w|, n)
    ensures forall r, t | 0 <= r < |w| && 0 <= t < |w[0]| :: p[r][t] == w[r][t]
    ensures forall r, t | 0 <= r < |w| && |w[0]| <= t < n :: p[r][t] == zero
  {
    if |w[0]| < n then
      var tail := ZeroRow(n - |w[0]|, zero);
      var p := seq(|w|, r requires 0 <= r < |w| => w[r] + tail);
      assert forall r | 0 <= r < |w| :: p[r] == w[r] + tail && |w[r]| == |w[0]|;
      p
    else w
  }

  /** A window that lies wholly inside the recording is read in full and
      needs no padding. */
  lemma FullWindow(rec: seq<seq<real>>, start: nat, n: nat)
    requires IsRecording(rec) && start + n <= NumSamples(rec)
    ensures |ReadWindow(rec, start, n)[0]| == n
    ensures PadChunk(ReadWindow(rec, start, n), n, 0.0) == ReadWindow(rec, start, n)
  {
  }
}

=== FILE: decimal.dfy ===
/** Decimal rendering of non-negative integers: Python's `str(n)` and the
    zero-padded format `f"{n:0wd}"`, with their parses. */
module Decimal {

  predicate IsDigit(c: char) {
    '0' <= c <= '9'
  }

  predicate AllDigits(s: string) {
    forall i | 0 <= i < |s| :: IsDigit(s[i])
  }

  function DigitChar(d: nat): (c: char)
    requires d < 10
    ensures IsDigit(c)
  {
    (48 + d) as char
  }

  function DigitValue(c: char): (d: nat)
    requires IsDigit(c)
    ensures d < 10
  {
    c as int - 48
  }

  /** Python `str(n)`: the shortest decimal spelling of `n`. */
  function Digits(n: nat): (s: string)
    ensures 1 <= |s| && AllDigits(s)
    decreases n
  {
    if n < 10 then [DigitChar(n)] else Digits(n / 10) + [DigitChar(n % 10)]
  }

  /** The number a digit string spells (Python `int(s)` on digits). */
  function Value(s: string): nat
    requires AllDigits(s)
  {
    if |s| == 0 then 0 else Value(s[..|s| - 1]) * 10 + DigitValue(s[|s| - 1])
  }

  /** `str` and `int` are inverse on the naturals. */
  lemma {:induction false} ValueOfDigits(n: nat)
    ensures Value(Digits(n)) == n
    decreases n
  {
    if n >= 10 {
      var s := Digits(n);
      assert s[..|s| - 1] == Digits(n / 10);
      ValueOfDigits(n / 10);
    }
  }

  lemma DigitsInjective(m: nat, n: nat)
    requires Digits(m) == Digits(n)
    ensures m == n
  {
    ValueOfDigits(m);
    ValueOfDigits(n);
  }

  function Zeros(k: nat): (s: string)
    ensures |s| == k && AllDigits(s)
  {
    seq(k, _ => '0')
  }

  lemma {:induction false} ValueOfZeros(k: nat)
    ensures Value(Zeros(k)) == 0
  {
    if k > 0 {
      assert Zeros(k)[..k - 1] == Zeros(k - 1);
      ValueOfZeros(k - 1);
    }
  }

  /** Leading zeros do not change the number a digit string spells. */
  lemma {:induction false} ValueIgnoresLeadingZeros(k: nat, s: string)
    requires AllDigits(s)
    ensures AllDigits(Zeros(k) + s) && Value(Zeros(k) + s) == Value(s)
    decreases |s|
  {
    var z := Zeros(k) + s;
    assert AllDigits(z) by {
      forall i | 0 <= i < |z|
        ensures IsDigit(z[i])
      {
        if i >= k {
          assert z[i] == s[i - k];
        }
      }
    }
    if |s| == 0 {
      assert z == Zeros(k);
      ValueOfZeros(k);
    } else {
      var init := s[..|s| - 1];
      assert z[..|z| - 1] == Zeros(k) + init;
      ValueIgnoresLeadingZeros(k, init);
    }
  }

  /** Python `f"{n:0{width}d}"`: `str(n)` left-padded with zeros to at
      least `width` characters. */
  function ZeroPad(n: nat, width: nat): (s: string)
    ensures AllDigits(s)
    ensures |s| == if |Digits(n)| <= width then width else |Digits(n)|
    ensures Value(s) == n
  {
    var d := Digits(n);
    var pad := if |d| <= width then width - |d| else 0;
    ValueIgnoresLeadingZeros(pad, d);
    ValueOfDigits(n);
    Zeros(pad) + d
  }

  /** Padding never truncates: the digits of `n` are the tail of its padded label. */
  lemma ZeroPadEndsWithDigits(n: nat, width: nat)
    ensures var s := ZeroPad(n, width);
            s[|s| - |Digits(n)|..] == Digits(n)
  {
  }
}

=== FILE: gridmap.dfy ===
/** Placing the 64 rows read from a recording onto the canonical channels
    "G1".."G64" by insert-and-shift: for every canonical name missing from the
    file's channel list a zero row is inserted at that position, pushing the
    later rows down, and the result is cut back to 64 rows. */
module GridMap {
  import opened Decimal

  const Channels: nat := 64

  /** Canonical name of grid row `i`: `"G" + str(i + 1)`. */
  function ChannelName(i: nat): string {
    "G" + Digits(i + 1)
  }

  lemma ChannelNameInjective(i: nat, j: nat)
    requires ChannelName(i) == ChannelName(j)
    ensures i == j
  {
    assert ChannelName(i)[1..] == Digits(i + 1);
    assert ChannelName(j)[1..] == Digits(j + 1);
    DigitsInjective(i + 1, j + 1);
  }

  /** `np.isin(chn, ch_names)`. */
  predicate Present(chNames: seq<string>, i: nat) {
    ChannelName(i) in chNames
  }

  /** How many of the canonical channels `0 .. i-1` the file has. */
  function PresentBefore(chNames: seq<string>, i: nat): (k: nat)
    ensures k <= i
  {
    if i == 0 then 0
    else PresentBefore(chNames, i - 1) + (if Present(chNames, i - 1) then 1 else 0)
  }

  /** Row `i` of the grid: a zero row for a missing channel, otherwise the
      input row whose position counts the present channels before `i`. */
  function GridRow<T>(rows: seq<T>, chNames: seq<string>, zero: T, i: nat): T
    requires i < Channels == |rows|
  {
    if Present(chNames, i) then rows[PresentBefore(chNames, i)] else zero
  }

  /** The grid as a whole, in closed form. */
  function Grid<T>(rows: seq<T>, chNames: seq<string>, zero: T): (g: seq<T>)
    requires |rows| == Channels
    ensures |g| == Channels
    ensures forall i | 0 <= i < Channels :: g[i] == GridRow(rows, chNames, zero, i)
  {
    seq(Channels, i requires 0 <= i < Channels => GridRow(rows, chNames, zero, i))
  }

  /** The insert-and-shift loop exactly as the loaders run it
      (`np.insert(sig, i, zeros, axis=0)` per missing name, then `sig[:64]`);
      it computes the closed-form grid. */
  method InsertMissing<T>(rows: seq<T>, chNames: seq<string>, zero: T) returns (grid: seq<T>)
    requires |rows| == Channels
    ensures grid == Grid(rows, chNames, zero)
  {
    var sig := rows;
    var i := 0;
    while i < Channels
      invariant 0 <= i <= Channels
      invariant |sig| == i + Channels - PresentBefore(chNames, i)
      invariant forall j | 0 <= j < i :: sig[j] == GridRow(rows, chNames, zero, j)
      invariant sig[i..] == rows[PresentBefore(chNames, i)..]
    {
      if !Present(chNames, i) {
        sig := sig[..i] + [zero] + sig[i..];
      }
      i := i + 1;
    }
    grid := sig[..Channels];
  }

  /** With every canonical channel present the grid is the input itself. */
  lemma {:induction false} AllPresentCount(chNames: seq<string>, i: nat)
    requires forall j | 0 <= j < i :: Present(chNames, j)
    ensures PresentBefore(chNames, i) == i
  {
    if i > 0 {
      AllPresentCount(chNames, i - 1);
    }
  }

  lemma GridIdentity<T>(rows: seq<T>, chNames: seq<string>, zero: T)
    requires |rows| == Channels
    requires forall i | 0 <= i < Channels :: Present(chNames, i)
    ensures Grid(rows, chNames, zero) == rows
  {
    forall i | 0 <= i < Channels
      ensures Grid(rows, chNames, zero)[i] == rows[i]
    {
      AllPresentCount(chNames, i);
    }
  }

  /** Present channels keep their relative order. */
  lemma {:induction false} PresentBeforeMonotone(chNames: seq<string>, i: nat, j: nat)
    requires i < j && Present(chNames, i)
    ensures PresentBefore(chNames, i) < PresentBefore(chNames, j)
    decreases j - i
  {
    if j > i + 1 {
      PresentBeforeMonotone(chNames, i, j - 1);
    }
  }

  lemma GridKeepsOrder<T>(rows: seq<T>, chNames: seq<string>, zero: T, i: nat, j: nat)
    requires |rows| == Channels && i < j < Channels
    requires Present(chNames, i) && Present(chNames, j)
    ensures var a, b := PresentBefore(chNames, i), PresentBefore(chNames, j);
            var g := Grid(rows, chNames, zero);
            a < b < Channels && g[i] == rows[a] && g[j] == rows[b]
  {
    PresentBeforeMonotone(chNames, i, j);
  }

  /** Every input row below the number of present channels lands somewhere:
      only the last `64 - PresentBefore(64)` input rows, one per missing
      channel, are dropped by the final cut. */
  lemma {:induction false} PresentBeforeOnto(chNames: seq<string>, i: nat, k: nat)
    requires k < PresentBefore(chNames, i)
    ensures exists j :: 0 <= j < i && Present(chNames, j) && PresentBefore(chNames, j) == k
  {
    if k < PresentBefore(chNames, i - 1) {
      PresentBeforeOnto(chNames, i - 1, k);
      var j :| 0 <= j < i - 1 && Present(chNames, j) && PresentBefore(chNames, j) == k;
      assert 0 <= j < i;
    } else {
      assert Present(chNames, i - 1) && PresentBefore(chNames, i - 1) == k;
    }
  }

  lemma GridKeepsLeadingRows<T>(rows: seq<T>, chNames: seq<string>, zero: T, k: nat)
    requires |rows| == Channels && k < PresentBefore(chNames, Channels)
    ensures exists i :: 0 <= i < Channels && Present(chNames, i) && Grid(rows, chNames, zero)[i] == rows[k]
  {
    PresentBeforeOnto(chNames, Channels, k);
    var i :| 0 <= i < Channels && Present(chNames, i) && PresentBefore(chNames, i) == k;
    assert Grid(rows, chNames, zero)[i] == rows[k];
  }

  /** When no input row equals the zero row, a grid row is zero exactly when
      its channel is missing. */
  lemma GridZeroIffMissing<T>(rows: seq<T>, chNames: seq<string>, zero: T, i: nat)
    requires |rows| == Channels && i < Channels
    requires forall k | 0 <= k < Channels :: rows[k] != zero
    ensures Grid(rows, chNames, zero)[i] == zero <==> !Present(chNames, i)
  {
  }
}

=== FILE: iteration.dfy ===
/** The `__iter__` state machine shared by both `ECoGDataset` classes: a
    cursor `index` that streams chunks while `index < Duration / 2` and is put
    back to 0 only when it ends exactly on that real-valued bound. */
module Iteration {
  import opened PyNum

  /** `self.index` and `self.max_samples` (`Duration / 2`, a float). */
  datatype Cursor = Cursor(index: nat, bound: real)

  /** The state right after `__init__`. */
  function Fresh(duration: real): Cursor {
    Cursor(0, duration / 2.0)
  }

  /** Where the `while index < max_samples` loop stops. */
  function StopIndex(c: Cursor): (e: nat)
    ensures c.index <= e && c.bound <= e as real
    ensures c.index < e ==> (e - 1) as real < c.bound
  {
    Max(c.index, Ceil(c.bound))
  }

  /** The chunk indices one complete pass yields. */
  function PassIndices(c: Cursor): seq<nat> {
    Range(c.index, StopIndex(c))
  }

  /** The cursor after one complete pass: reset to 0 only on exact equality. */
  function AfterPass(c: Cursor): Cursor {
    var e := StopIndex(c);
    Cursor(if e as real == c.bound then 0 else e, c.bound)
  }

  /** One complete pass of `__iter__`, as the generator runs it. */
  method Iterate(c: Cursor) returns (yielded: seq<nat>, next: Cursor)
    ensures yielded == PassIndices(c)
    ensures next == AfterPass(c)
  {
    var index := c.index;
    yielded := [];
    while (index as real) < c.bound
      invariant c.index <= index <= StopIndex(c)
      invariant yielded == Range(c.index, index)
      decreases StopIndex(c) - index
    {
      yielded := yielded + [index];
      index := index + 1;
    }
    if index as real == c.bound {
      index := 0;
    }
    next := Cursor(index, c.bound);
  }

  /** From a fresh dataset, a pass yields chunks `0 .. ceil(Duration/2) - 1`. */
  lemma FreshPass(duration: real)
    requires 0.0 <= duration
    ensures PassIndices(Fresh(duration)) == Range(0, Ceil(duration / 2.0))
    ensures |PassIndices(Fresh(duration))| == Ceil(duration / 2.0)
  {
  }

  /** The cursor returns to 0 after the first pass exactly when `Duration / 2`
      is a whole number. */
  lemma ResetIffIntegral(duration: real)
    requires 0.0 <= duration
    ensures AfterPass(Fresh(duration)).index == 0 <==> IsIntegral(duration / 2.0)
  {
    var b := duration / 2.0;
    if IsIntegral(b) {
      CeilOfIntegral(b);
    }
  }

  /** With a whole-number bound every pass repeats the first one. */
  lemma IntegralBoundRestarts(duration: real)
    requires 0.0 <= duration && IsIntegral(duration / 2.0)
    ensures AfterPass(Fresh(duration)) == Fresh(duration)
  {
    CeilOfIntegral(duration / 2.0);
  }

  /** With a fractional bound the first pass ends past the bound without a
      reset, and every later pass yields nothing and changes nothing. */
  lemma FractionalBoundSticks(duration: real)
    requires 0.0 <= duration && !IsIntegral(duration / 2.0)
    ensures var c := AfterPass(Fresh(duration));
            c.index == Ceil(duration / 2.0) && PassIndices(c) == [] && AfterPass(c) == c
  {
  }

  /** The pass as written, on a 3-second recording: two chunks, then none. */
  lemma StuckAfterPartialPass()
    ensures PassIndices(Fresh(3.0)) == [0, 1]
    ensures PassIndices(AfterPass(Fresh(3.0))) == []
  {
    assert Ceil(1.5) == 2;
    assert Range(0, 2) == [0] + Range(1, 2);
  }

  /** Corrected reset (`index >= max_samples`): after a complete pass the
      loop has always reached the bound, so the cursor always returns to 0. */
  function AfterPassReset(c: Cursor): (n: Cursor)
    ensures n.bound == c.bound
  {
    var e := StopIndex(c);
    Cursor(if e as real >= c.bound then 0 else e, c.bound)
  }

  /** With the corrected reset every pass from a fresh dataset yields the
      same `ceil(Duration/2)` chunks, whatever the duration. */
  lemma CorrectedPassRepeats(duration: real)
    requires 0.0 <= duration
    ensures AfterPassReset(Fresh(duration)) == Fresh(duration)
    ensures PassIndices(Fresh(duration)) == Range(0, Ceil(duration / 2.0))
  {
  }

  /** Every chunk index a pass from a fresh dataset yields lies below
      `Duration / 2` (and so below its ceiling). */
  lemma PassIndexBelowBound(duration: real, k: nat)
    requires 0.0 <= duration && k in PassIndices(Fresh(duration))
    ensures (k as real) < duration / 2.0 && k < Ceil(duration / 2.0)
  {
  }

  /** `ChainDataset`: members are exhausted one after the other; each
      yielded pair is (member, chunk index). */
  function ChainYield(cs: seq<Cursor>): (ys: seq<(nat, nat)>)
    ensures forall y | y in ys :: y.0 < |cs| && y.1 in PassIndices(cs[y.0])
  {
    if |cs| == 0 then []
    else
      var last := |cs| - 1;
      ChainYield(cs[..last]) + seq(|PassIndices(cs[last])|, i requires 0 <= i < |PassIndices(cs[last])| =>
        (last, PassIndices(cs[last])[i]))
  }

  /** Items ordered by member first, then by chunk index. */
  predicate MemberMajor(ys: seq<(nat, nat)>) {
    forall i, j | 0 <= i < j < |ys| :: ys[i].0 < ys[j].0 || (ys[i].0 == ys[j].0 && ys[i].1 < ys[j].1)
  }

  /** The chained pass exhausts the members one after the other, each in
      increasing chunk order, and leaves out no chunk of any member. */
  lemma {:induction false} ChainYieldInOrder(cs: seq<Cursor>)
    ensures MemberMajor(ChainYield(cs))
    ensures forall m, k | 0 <= m < |cs| && k in PassIndices(cs[m]) :: (m, k) in ChainYield(cs)
  {
    if |cs| > 0 {
      var last := |cs| - 1;
      var init := cs[..last];
      ChainYieldInOrder(init);
      var front := ChainYield(init);
      assert MemberMajor(front);
      var p := PassIndices(cs[last]);
      var tail := seq(|p|, i requires 0 <= i < |p| => (last, p[i]));
      var ys := ChainYield(cs);
      assert ys == front + tail;
      forall i, j | 0 <= i < j < |ys|
        ensures ys[i].0 < ys[j].0 || (ys[i].0 == ys[j].0 && ys[i].1 < ys[j].1)
      {
        if j < |front| {
          assert ys[i] == front[i] && ys[j] == front[j];
        } else if i < |front| {
          assert ys[i] == front[i] && front[i] in front;
          assert ys[j] == tail[j - |front|];
          assert ys[i].0 < |init| == last == ys[j].0;
        } else {
          assert ys[i] == tail[i - |front|] && ys[j] == tail[j - |front|];
          assert p[i - |front|] == cs[last].index + (i - |front|);
          assert p[j - |front|] == cs[last].index + (j - |front|);
        }
      }
      forall m, k | 0 <= m < |cs| && k in PassIndices(cs[m])
        ensures (m, k) in ys
      {
        if m < last {
          assert init[m] == cs[m];
          assert (m, k) in front;
        } else {
          var i :| 0 <= i < |p| && p[i] == k;
          assert tail[i] == (m, k);
          assert ys[|front| + i] == (m, k);
        }
      }
    }
  }

  function ChainAfter(cs: seq<Cursor>): (ns: seq<Cursor>)
    ensures |ns| == |cs| && forall i | 0 <= i < |cs| :: ns[i] == AfterPass(cs[i])
  {
    seq(|cs|, i requires 0 <= i < |cs| => AfterPass(cs[i]))
  }

  /** A chained pass streams exactly the sum of its members' pass lengths. */
  lemma {:induction false} ChainYieldLength(cs: seq<Cursor>)
    ensures |ChainYield(cs)| == SumPassLengths(cs)
  {
    if |cs| > 0 {
      ChainYieldLength(cs[..|cs| - 1]);
    }
  }

  function SumPassLengths(cs: seq<Cursor>): nat {
    if |cs| == 0 then 0 else SumPassLengths(cs[..|cs| - 1]) + |PassIndices(cs[|cs| - 1])|
  }

  /** Over fresh members whose bounds are all whole numbers, the second chained
      pass reproduces the first; a member with a fractional bound contributes
      nothing to the second pass. */
  lemma {:induction false} ChainSecondPass(cs: seq<Cursor>)
    requires forall i | 0 <= i < |cs| :: cs[i].index == 0 && 0.0 <= cs[i].bound
    ensures (forall i | 0 <= i < |cs| :: IsIntegral(cs[i].bound)) ==>
              ChainYield(ChainAfter(cs)) == ChainYield(cs)
    ensures forall y | y in ChainYield(ChainAfter(cs)) :: IsIntegral(cs[y.0].bound)
  {
    if |cs| > 0 {
      var last := |cs| - 1;
      ChainSecondPass(cs[..last]);
      assert ChainAfter(cs)[..last] == ChainAfter(cs[..last]);
      var c := cs[last];
      if IsIntegral(c.bound) {
        CeilOfIntegral(c.bound);
        assert AfterPass(c) == c;
      } else {
        assert PassIndices(AfterPass(c)) == [];
      }
      forall y | y in ChainYield(ChainAfter(cs))
        ensures IsIntegral(cs[y.0].bound)
      {
        if y.0 == last {
          assert y.1 in PassIndices(AfterPass(c));
        } else {
          assert y in ChainYield(ChainAfter(cs)[..last]);
        }
      }
    }
  }
}

=== FILE: loader.dfy ===
/** `ECoGDataset.sample_data` of loader.py: the earlier variant that
    normalises the raw read before padding and grid placement, without a
    zero-std guard, and always takes the envelope. */
module Loader {
  import opened Results
  import opened Signal
  import opened Chunking
  import opened GridMap
  import opened Normalise
  import opened Assembly
  import opened TestLoader

  /** The read chunk, each row shifted by its own `mean / std`. */
  function NormalisedRead(ops: SignalOps, f: EdfFile, fs: nat, index: nat): (m: seq<seq<Value>>)
    requires ValidOps(ops) && ValidFile(f)
    ensures var w := ReadWindow(Picks(f), WindowStart(ChunkLength(fs), index), ChunkLength(fs));
            IsMatrix(m, 64, |w[0]|) && |w[0]| <= ChunkLength(fs)
            && forall r | 0 <= r < 64 :: m[r] == NormaliseUnguardedRow(ops, w[r])
  {
    var n := ChunkLength(fs);
    var w := ReadWindow(Picks(f), WindowStart(n, index), n);
    var m := seq(64, r requires 0 <= r < 64 => NormaliseUnguardedRow(ops, w[r]));
    assert forall r | 0 <= r < 64 :: m[r] == NormaliseUnguardedRow(ops, w[r]) && |m[r]| == |w[r]|;
    m
  }

  /** Normalise, then zero-pad to `n_samples` columns, then insert-and-shift. */
  function LoaderGrid(ops: SignalOps, f: EdfFile, fs: nat, index: nat): (g: seq<seq<Value>>)
    requires ValidOps(ops) && ValidFile(f)
    ensures IsMatrix(g, 64, ChunkLength(fs))
  {
    var n := ChunkLength(fs);
    var p := PadChunk(NormalisedRead(ops, f, fs, index), n, Finite(0.0));
    var g := Grid(p, f.chNames, ZeroRow(n, Finite(0.0)));
    assert forall i | 0 <= i < 64 :: g[i] == GridRow(p, f.chNames, ZeroRow(n, Finite(0.0)), i);
    g
  }

  /** Cell `(i, t)` of the grid before the statistics are spelt out: a read
      sample of a present channel comes from that channel's normalised row,
      and every other cell is a zero added after normalising. */
  lemma LoaderGridCell(ops: SignalOps, f: EdfFile, fs: nat, index: nat, i: nat, t: nat)
    requires ValidOps(ops) && ValidFile(f) && i < 64 && t < ChunkLength(fs)
    ensures var w := ReadWindow(Picks(f), WindowStart(ChunkLength(fs), index), ChunkLength(fs));
            var g := LoaderGrid(ops, f, fs, index);
            var k := PresentBefore(f.chNames, i);
            && (Present(f.chNames, i) && t < |w[0]| ==> g[i][t] == NormaliseUnguardedRow(ops, w[k])[t])
            && (!Present(f.chNames, i) || |w[0]| <= t ==> g[i][t] == Finite(0.0))
  {
    var n, start := ChunkLength(fs), WindowStart(ChunkLength(fs), index);
    var m := NormalisedRead(ops, f, fs, index);
    var p := PadChunk(m, n, Finite(0.0));
    assert LoaderGrid(ops, f, fs, index)[i] == GridRow(p, f.chNames, ZeroRow(n, Finite(0.0)), i);
    if Present(f.chNames, i) {
      assert LoaderGrid(ops, f, fs, index)[i] == p[PresentBefore(f.chNames, i)];
    }
  }

  /** Cell `(i, t)` of the grid: an inserted row and the padding are plain
      zeros, because they are added after normalising; a read sample is
      shifted by its row's `mean / std`, or is nan when that row is constant. */
  lemma LoaderGridCells(ops: SignalOps, f: EdfFile, fs: nat, index: nat, i: nat, t: nat)
    requires ValidOps(ops) && ValidFile(f) && i < 64 && t < ChunkLength(fs)
    ensures var n, start := ChunkLength(fs), WindowStart(ChunkLength(fs), index);
            var w := ReadWindow(Picks(f), start, n);
            var g := LoaderGrid(ops, f, fs, index);
            var k := PresentBefore(f.chNames, i);
            && (!Present(f.chNames, i) ==> g[i][t] == Finite(0.0))
            && (|w[0]| <= t ==> g[i][t] == Finite(0.0))
            && (Present(f.chNames, i) && t < |w[0]| && Variance(w[k]) == 0.0 ==> g[i][t] == NonFinite)
            && (Present(f.chNames, i) && t < |w[0]| && Variance(w[k]) != 0.0 ==>
                  g[i][t] == Finite(f.signals[k + 1][start + t] - Mean(w[k]) / Std(ops, w[k])))
  {
    LoaderGridCell(ops, f, fs, index, i, t);
    var start := WindowStart(ChunkLength(fs), index);
    var w := ReadWindow(Picks(f), start, ChunkLength(fs));
    if Present(f.chNames, i) && t < |w[0]| {
      var k := PresentBefore(f.chNames, i);
      assert w[k][t] == f.signals[k + 1][start + t];
    }
  }

  /** loader.py's `sample_data`: the band tensor of shape
      `(len(bands), n_new_samples, 1, 8, 8)`, envelope always on; it fails
      only when the filter design rejects a band or the resampling rejects
      `n_new_samples = 0`. */
  function LoaderSampleData(ops: SignalOps, f: EdfFile, fs: nat, newFs: nat, bands: seq<Band>, index: nat)
    : (r: Result<seq<seq<seq<seq<seq<Value>>>>>>)
    requires ValidOps(ops) && ValidFile(f) && fs > 0
    ensures r.Ok? <==> BandsUsable(bands, fs) && newFs > 0
    ensures r.Ok? ==> IsTensor(r.value, |bands|, OutLength(newFs))
    ensures r.Err? ==> !r.error.ZeroDivision?
    ensures r.Err? && r.error.EmptyResample? ==> newFs == 0 && BandsUsable(bands, fs)
  {
    BandTensor(ops, fs, bands, true, LoaderGrid(ops, f, fs, index), OutLength(newFs))
  }

  /** Cell `(h, w)` of band `c` is loader grid row `8h + w` after that band's
      filter, the envelope (always taken here) and the resampling. */
  lemma LoaderSampleDataCells(ops: SignalOps, f: EdfFile, fs: nat, newFs: nat, bands: seq<Band>, index: nat,
                              c: nat, i: nat, h: nat, w: nat)
    requires ValidOps(ops) && ValidFile(f) && fs > 0
    requires LoaderSampleData(ops, f, fs, newFs, bands, index).Ok?
    requires c < |bands| && i < OutLength(newFs) && h < 8 && w < 8
    ensures LoaderSampleData(ops, f, fs, newFs, bands, index).value[c][i][0][h][w]
            == StageRow(ops, fs, bands[c], true, LoaderGrid(ops, f, fs, index)[8 * h + w], OutLength(newFs))[i]
  {
    BandTensorCells(ops, fs, bands, true, LoaderGrid(ops, f, fs, index), OutLength(newFs));
  }

  /** On a present channel whose read is constant, loader.py produces
      non-finite samples; when the window is a full one, test_loader.py's
      `sample` mode leaves that grid row as it is. */
  lemma ConstantRowDiffers(ops: SignalOps, f: EdfFile, fs: nat, index: nat, i: nat, t: nat)
    requires ValidOps(ops) && ValidFile(f) && i < 64 && Present(f.chNames, i)
    requires var w := ReadWindow(Picks(f), WindowStart(ChunkLength(fs), index), ChunkLength(fs));
             t < |w[0]| && Variance(w[PresentBefore(f.chNames, i)]) == 0.0
    ensures LoaderGrid(ops, f, fs, index)[i][t] == NonFinite
    ensures WindowStart(ChunkLength(fs), index) + ChunkLength(fs) <= |f.signals[0]| ==>
              var row := RawGrid(f, fs, index)[i];
              NormaliseSampleRow(ops, row) == Lift(row)
  {
    LoaderGridCells(ops, f, fs, index, i, t);
    var n, start := ChunkLength(fs), WindowStart(ChunkLength(fs), index);
    if start + n <= |f.signals[0]| {
      var w := ReadWindow(Picks(f), start, n);
      FullWindow(Picks(f), start, n);
      var p := PadChunk(w, n, 0.0);
      assert p == w;
      var k := PresentBefore(f.chNames, i);
      assert RawGrid(f, fs, index)[i] == GridRow(p, f.chNames, ZeroRow(n, 0.0), i) == w[k];
    }
  }
}

=== FILE: manifest.dfy ===
/** The pure part of `dl_setup`: the manifest subset, the train/test split,
    the BIDS entity labels of a manifest row and the advertised number of
    training samples. */
module Manifest {
  import opened PyNum
  import opened Decimal
  import opened Iteration

  /** One row of `dataset.csv`. */
  datatype Row = Row(subject: nat, task: nat, chunk: nat)

  /** `n * f` stays within `[0, n]` for a fraction `f`. */
  lemma ScaleBelow(n: real, f: real)
    requires 0.0 <= n && 0.0 <= f <= 1.0
    ensures 0.0 <= n * f <= n
  {
    assert n - n * f == n * (1.0 - f);
    assert 0.0 <= n * (1.0 - f);
  }

  /** `n * f` is at least `n` for `f >= 1`. */
  lemma ScaleAbove(n: real, f: real)
    requires 0.0 <= n && 1.0 <= f
    ensures n <= n * f
  {
    assert n * f - n == n * (f - 1.0);
    assert 0.0 <= n * (f - 1.0);
  }

  /** `data.iloc[: int(len(data) * data_size), :]`: a negative fraction
      counts from the end, as a Python slice does. */
  function SubsetManifest<T>(data: seq<T>, dataSize: real): (r: seq<T>)
    ensures |r| <= |data| && r == data[..|r|]
    ensures 0.0 <= dataSize <= 1.0 ==> |r| == Trunc(|data| as real * dataSize)
    ensures 1.0 <= dataSize ==> r == data
  {
    var k := Trunc(|data| as real * dataSize);
    if 0.0 <= dataSize <= 1.0 then
      ScaleBelow(|data| as real, dataSize);
      Prefix(data, k)
    else if 1.0 <= dataSize then
      ScaleAbove(|data| as real, dataSize);
      Prefix(data, k)
    else Prefix(data, k)
  }

  /** `split_index = int(ratio * len(df))`. */
  function SplitIndex(ratio: real, n: nat): int {
    Trunc(ratio * n as real)
  }

  /** `split_dataframe` of test_loader.py: shuffle when `args.shuffle`
      (`order` is the permutation `df.sample(frac=1)` draws), then cut at
      `split_index`; the first part trains, the rest tests. */
  function SplitDataframe<T>(df: seq<T>, ratio: real, shuffle: bool, order: seq<nat>): (r: (seq<T>, seq<T>))
    requires shuffle ==> IsPermutation(order, |df|)
    ensures r.0 + r.1 == if shuffle then Permute(df, order) else df
    ensures |r.0| == SliceBound(|df|, SplitIndex(ratio, |df|))
  {
    var d := if shuffle then Permute(df, order) else df;
    var k := SplitIndex(ratio, |d|);
    assert d == Prefix(d, k) + Suffix(d, k);
    (Prefix(d, k), Suffix(d, k))
  }

  /** `split_dataframe` of loader.py: always shuffles, and `dl_setup` calls
      it with the fixed ratio 0.9. */
  function SplitDataframeLoader<T>(df: seq<T>, order: seq<nat>): (r: (seq<T>, seq<T>))
    requires IsPermutation(order, |df|)
    ensures r.0 + r.1 == Permute(df, order)
    ensures |r.0| == SliceBound(|df|, SplitIndex(0.9, |df|))
  {
    SplitDataframe(df, 0.9, true, order)
  }

  /** The two parts of a split hold every manifest row exactly once between
      them: nothing is lost or duplicated by shuffling and cutting. */
  lemma SplitPartitions<T>(df: seq<T>, ratio: real, shuffle: bool, order: seq<nat>)
    requires shuffle ==> IsPermutation(order, |df|)
    ensures var r := SplitDataframe(df, ratio, shuffle, order);
            multiset(r.0) + multiset(r.1) == multiset(df)
  {
    var r := SplitDataframe(df, ratio, shuffle, order);
    assert multiset(r.0 + r.1) == multiset(r.0) + multiset(r.1);
    if shuffle {
      PermutePreservesMultiset(df, order);
    }
  }

  /** For a ratio in `[0, 1]` the train part has `int(ratio * len(df))` rows
      and the test part the rest. */
  lemma SplitSizes<T>(df: seq<T>, ratio: real, shuffle: bool, order: seq<nat>)
    requires shuffle ==> IsPermutation(order, |df|)
    requires 0.0 <= ratio <= 1.0
    ensures var r := SplitDataframe(df, ratio, shuffle, order);
            |r.0| == Trunc(ratio * |df| as real) && |r.1| == |df| - |r.0|
  {
    var n := |df| as real;
    ScaleBelow(n, ratio);
    assert 0.0 <= ratio * n <= n by {
      assert ratio * n == n * ratio;
    }
    var k := Trunc(ratio * n);
    assert 0 <= k <= |df|;
    var r := SplitDataframe(df, ratio, shuffle, order);
    assert |r.0| == k;
    assert |r.0 + r.1| == |df|;
  }

  /** `f"{row.subject:02d}"`. */
  function SubjectLabel(subject: nat): (s: string)
    ensures AllDigits(s) && 2 <= |s| && Value(s) == subject
  {
    ZeroPad(subject, 2)
  }

  /** `f"part{row.task:03d}chunk{row.chunk:02d}"`. */
  function TaskLabel(task: nat, chunk: nat): string {
    "part" + ZeroPad(task, 3) + "chunk" + ZeroPad(chunk, 2)
  }

  /** Length of the run of digits `s` starts with. */
  function LeadingDigits(s: string): (k: nat)
    ensures k <= |s| && AllDigits(s[..k])
    ensures k < |s| ==> !IsDigit(s[k])
  {
    if |s| == 0 || !IsDigit(s[0]) then 0
    else
      var k := 1 + LeadingDigits(s[1..]);
      assert s[..k] == [s[0]] + s[1..][..k - 1];
      k
  }

  lemma {:induction false} LeadingDigitsOfDigits(d: string, rest: string)
    requires AllDigits(d) && 0 < |rest| && !IsDigit(rest[0])
    ensures LeadingDigits(d + rest) == |d|
  {
    if |d| > 0 {
      assert (d + rest)[1..] == d[1..] + rest;
      LeadingDigitsOfDigits(d[1..], rest);
    }
  }

  /** Reads a task label back: `part`, a run of digits, `chunk`, digits. */
  function ParseTaskLabel(s: string): (r: Option<(nat, nat)>)
    ensures r.Some? ==> 4 <= |s| && s[..4] == "part"
  {
    if |s| < 4 || s[..4] != "part" then None
    else
      var rest := s[4..];
      var k := LeadingDigits(rest);
      if k == 0 || |rest| < k + 5 || rest[k..k + 5] != "chunk" then None
      else
        var tail := rest[k + 5..];
        if |tail| == 0 || !AllDigits(tail) then None
        else Some((Value(rest[..k]), Value(tail)))
  }

  datatype Option<T> = None | Some(value: T)

  /** Every task label parses back to the task and chunk it was built from. */
  lemma TaskLabelRoundTrip(task: nat, chunk: nat)
    ensures ParseTaskLabel(TaskLabel(task, chunk)) == Some((task, chunk))
  {
    var s := TaskLabel(task, chunk);
    var t, c := ZeroPad(task, 3), ZeroPad(chunk, 2);
    assert s[..4] == "part";
    var rest := s[4..];
    assert rest == t + ("chunk" + c);
    LeadingDigitsOfDigits(t, "chunk" + c);
    assert rest[..|t|] == t;
    assert rest[|t|..|t| + 5] == "chunk";
    assert rest[|t| + 5..] == c;
  }

  /** Distinct manifest rows get distinct BIDS labels, so no two datasets
      read the same file. */
  lemma LabelsInjective(a: Row, b: Row)
    requires SubjectLabel(a.subject) == SubjectLabel(b.subject)
    requires TaskLabel(a.task, a.chunk) == TaskLabel(b.task, b.chunk)
    ensures a == b
  {
    TaskLabelRoundTrip(a.task, a.chunk);
    TaskLabelRoundTrip(b.task, b.chunk);
  }

  /** `num_train_samples`: the sum of `int(Duration / 2)` over the train
      files. */
  function NumTrainSamples(durations: seq<real>): int {
    if |durations| == 0 then 0
    else NumTrainSamples(durations[..|durations| - 1]) + Trunc(durations[|durations| - 1] / 2.0)
  }

  /** The cursors of freshly built datasets, one per file. */
  function FreshCursors(durations: seq<real>): (cs: seq<Cursor>)
    ensures |cs| == |durations| && forall i | 0 <= i < |cs| :: cs[i] == Fresh(durations[i])
  {
    seq(|durations|, i requires 0 <= i < |durations| => Fresh(durations[i]))
  }

  lemma TruncBelowCeil(x: real)
    requires 0.0 <= x
    ensures Trunc(x) <= Ceil(x)
    ensures Trunc(x) == Ceil(x) <==> IsIntegral(x)
  {
  }

  /** The advertised count never exceeds what the chained first pass
      actually streams, and matches it exactly when every duration is an
      even number of seconds, that is when `Duration / 2` is whole. */
  lemma {:induction false} NumTrainSamplesBound(durations: seq<real>)
    requires forall i | 0 <= i < |durations| :: 0.0 <= durations[i]
    ensures NumTrainSamples(durations) <= SumPassLengths(FreshCursors(durations))
    ensures NumTrainSamples(durations) == SumPassLengths(FreshCursors(durations))
            <==> forall i | 0 <= i < |durations| :: IsIntegral(durations[i] / 2.0)
  {
    if |durations| > 0 {
      var n := |durations| - 1;
      var init := durations[..n];
      NumTrainSamplesBound(init);
      var d := durations[n] / 2.0;
      TruncBelowCeil(d);
      StreamedStep(durations);
      AllIntegralStep(durations);
      assert NumTrainSamples(durations) == NumTrainSamples(init) + Trunc(d);
    }
  }

  /** Adding a file adds its `ceil(Duration / 2)` chunks to the chained pass. */
  lemma StreamedStep(durations: seq<real>)
    requires 0 < |durations| && 0.0 <= durations[|durations| - 1]
    ensures var n := |durations| - 1;
            SumPassLengths(FreshCursors(durations))
            == SumPassLengths(FreshCursors(durations[..n])) + Ceil(durations[n] / 2.0)
  {
    var n := |durations| - 1;
    assert FreshCursors(durations)[..n] == FreshCursors(durations[..n]);
    FreshPass(durations[n]);
  }

  /** Every half-duration is whole exactly when those of the earlier files
      are and the last one is. */
  lemma AllIntegralStep(durations: seq<real>)
    requires 0 < |durations|
    ensures var n := |durations| - 1;
            (forall i | 0 <= i < |durations| :: IsIntegral(durations[i] / 2.0))
            <==> (forall i | 0 <= i < n :: IsIntegral(durations[..n][i] / 2.0)) && IsIntegral(durations[n] / 2.0)
  {
    var n := |durations| - 1;
    assert forall i | 0 <= i < n :: durations[..n][i] == durations[i];
  }
}

=== FILE: masking.dfy ===
/** The index part of one training or evaluation step: the tube mask the
    encoder sees, the decoder mask of positions to reconstruct, and the
    electrode label of each grid cell. The random draw (`torch.randperm`) is
    a parameter: any permutation may be passed. */
module Masking {
  import opened PyNum
  import opened Decimal
  import opened GridMap
  import opened Assembly

  /** A boolean mask of length `len` with `True` exactly at the positions
      listed in `idx` (`torch.zeros(len).bool()` then `m[idx] = True`). */
  function Mark(len: nat, idx: seq<nat>): (m: seq<bool>)
    ensures |m| == len
    ensures forall j | 0 <= j < len :: m[j] <==> j in idx
  {
    seq(len, j requires 0 <= j < len => j in idx)
  }

  /** Number of `True` entries. */
  function Count(m: seq<bool>): (n: nat)
    ensures n <= |m|
  {
    if |m| == 0 then 0 else Count(m[..|m| - 1]) + (if m[|m| - 1] then 1 else 0)
  }

  lemma {:induction false} CountAppend(a: seq<bool>, b: seq<bool>)
    ensures Count(a + b) == Count(a) + Count(b)
    decreases |b|
  {
    if |b| > 0 {
      assert (a + b)[..|a + b| - 1] == a + b[..|b| - 1];
      CountAppend(a, b[..|b| - 1]);
    } else {
      assert a + b == a;
    }
  }

  /** Setting one `False` entry to `True` adds one to the count. */
  lemma {:induction false} CountSetTrue(m: seq<bool>, v: nat)
    requires v < |m| && !m[v]
    ensures Count(m[v := true]) == Count(m) + 1
  {
    var n := |m| - 1;
    if v < n {
      assert m[v := true][..n] == m[..n][v := true];
      CountSetTrue(m[..n], v);
    } else {
      assert m[v := true][..n] == m[..n];
    }
  }

  /** Marking distinct in-range positions sets exactly that many entries. */
  lemma {:induction false} MarkCount(len: nat, idx: seq<nat>)
    requires Distinct(idx) && forall i | 0 <= i < |idx| :: idx[i] < len
    ensures Count(Mark(len, idx)) == |idx|
  {
    if |idx| == 0 {
      NoTrues(Mark(len, idx));
    } else {
      var init := idx[..|idx| - 1];
      var v := idx[|idx| - 1];
      MarkCount(len, init);
      assert v !in init;
      assert Mark(len, idx) == Mark(len, init)[v := true];
      CountSetTrue(Mark(len, init), v);
    }
  }

  lemma {:induction false} NoTrues(m: seq<bool>)
    requires forall j | 0 <= j < |m| :: !m[j]
    ensures Count(m) == 0
  {
    if |m| > 0 {
      NoTrues(m[..|m| - 1]);
    }
  }

  /** `tube_mask.tile(num_frames)`: `b` repeated `frames` times. */
  function Tile(b: seq<bool>, frames: nat): (m: seq<bool>)
    ensures |m| == frames * |b|
  {
    if frames == 0 then [] else b + Tile(b, frames - 1)
  }

  /** Position `r` of frame `q` in the tiled mask is position `r` of the base. */
  lemma {:induction false} TileIndex(b: seq<bool>, frames: nat, q: nat, r: nat)
    requires q < frames && r < |b|
    ensures q * |b| + r < |Tile(b, frames)| && Tile(b, frames)[q * |b| + r] == b[r]
  {
    if q > 0 {
      TileIndex(b, frames - 1, q - 1, r);
      assert q * |b| + r == |b| + ((q - 1) * |b| + r);
    }
  }

  /** The tiled mask is periodic with the base length as period. */
  lemma {:induction false} TilePeriodic(b: seq<bool>, frames: nat, p: nat)
    requires p + |b| < |Tile(b, frames)|
    ensures Tile(b, frames)[p + |b|] == Tile(b, frames)[p]
  {
    if p >= |b| {
      TilePeriodic(b, frames - 1, p - |b|);
    }
  }

  lemma {:induction false} TileCount(b: seq<bool>, frames: nat)
    ensures Count(Tile(b, frames)) == frames * Count(b)
  {
    if frames > 0 {
      TileCount(b, frames - 1);
      CountAppend(b, Tile(b, frames - 1));
      assert frames * Count(b) == Count(b) + (frames - 1) * Count(b);
    }
  }

  /** `int(num_patches / num_frames * (1 - tube_mask_ratio))`. */
  function TubeKeep(numPatches: nat, numFrames: nat, tubeRatio: real): int
    requires numFrames > 0
  {
    Trunc(numPatches as real / numFrames as real * (1.0 - tubeRatio))
  }

  /** The per-frame mask: `True` at the first `keep` entries of the drawn
      permutation (Python slicing, so a negative `keep` drops from the end). */
  function BaseTubeMask(len: nat, perm: seq<nat>, keep: int): (m: seq<bool>)
    requires IsPermutation(perm, len)
    ensures |m| == len
    ensures Count(m) == SliceBound(len, keep)
  {
    var chosen := Prefix(perm, keep);
    MarkCount(len, chosen);
    Mark(len, chosen)
  }

  /** A mask's `False` positions in increasing order: `(~m).nonzero()`. */
  function Falses(m: seq<bool>): (f: seq<nat>)
    ensures |f| == |m| - Count(m)
    ensures forall i | 0 <= i < |f| :: f[i] < |m| && !m[f[i]]
    ensures forall i, j | 0 <= i < j < |f| :: f[i] < f[j]
  {
    if |m| == 0 then []
    else
      var n := |m| - 1;
      var rest := Falses(m[..n]);
      if m[n] then rest else rest + [n]
  }

  /** `Falses` misses no `False` position. */
  lemma {:induction false} FalsesComplete(m: seq<bool>, j: nat)
    requires j < |m| && !m[j]
    ensures j in Falses(m)
  {
    var n := |m| - 1;
    if j < n {
      FalsesComplete(m[..n], j);
    }
  }

  /** `remaining_mask_idx[: d]` marked on a mask of `numPatches` positions. */
  function DecoderMask(numPatches: nat, tube: seq<bool>, keep: int): (m: seq<bool>)
    requires |tube| <= numPatches
    ensures |m| == numPatches
  {
    Mark(numPatches, Prefix(Falses(tube), keep))
  }

  /** The decoder mask never selects a position the tube mask selects, nor a
      position past the end of the tube mask. */
  lemma DecoderDisjoint(numPatches: nat, tube: seq<bool>, keep: int, j: nat)
    requires |tube| <= numPatches && j < numPatches
    requires DecoderMask(numPatches, tube, keep)[j]
    ensures j < |tube| && !tube[j]
  {
    var f := Falses(tube);
    var i :| 0 <= i < |Prefix(f, keep)| && Prefix(f, keep)[i] == j;
    assert f[i] == j;
  }

  /** The selection is the lowest-indexed run of non-tube positions: below a
      selected position every non-tube position is selected too. */
  lemma DecoderTakesLowest(numPatches: nat, tube: seq<bool>, keep: int, p: nat, q: nat)
    requires |tube| <= numPatches && p < numPatches
    requires DecoderMask(numPatches, tube, keep)[p]
    requires q < p && !tube[q]
    ensures DecoderMask(numPatches, tube, keep)[q]
  {
    DecoderDisjoint(numPatches, tube, keep, p);
    var f := Falses(tube);
    var chosen := Prefix(f, keep);
    var i :| 0 <= i < |chosen| && chosen[i] == p;
    FalsesComplete(tube, q);
    var i' :| 0 <= i' < |f| && f[i'] == q;
    assert f[i] == p;
    assert chosen[i'] == q;
  }

  /** Marking a prefix of a strictly increasing sequence of positions
      below `len` sets exactly as many entries as the prefix is long. */
  lemma MarkIncreasingPrefix(len: nat, f: seq<nat>, keep: int)
    requires forall i, j | 0 <= i < j < |f| :: f[i] < f[j]
    requires forall i | 0 <= i < |f| :: f[i] < len
    ensures Count(Mark(len, Prefix(f, keep))) == SliceBound(|f|, keep)
  {
    var chosen := Prefix(f, keep);
    assert Distinct(chosen);
    MarkCount(len, chosen);
  }

  /** The decoder mask selects `min(d, #False in the tube mask)` positions
      for `d >= 0`, with Python slicing for a negative `d`. */
  lemma DecoderCount(numPatches: nat, tube: seq<bool>, keep: int)
    requires |tube| <= numPatches
    ensures Count(DecoderMask(numPatches, tube, keep)) == SliceBound(|Falses(tube)|, keep)
  {
    MarkIncreasingPrefix(numPatches, Falses(tube), keep);
  }

  /** Both masks of one step (train.py builds them the same way in the
      training and in the evaluation loop). */
  datatype Masks = Masks(tube: seq<bool>, decoder: seq<bool>)

  function BuildMasks(numPatches: nat, numFrames: nat, perm: seq<nat>, tubeRatio: real, decoderRatio: real)
    : (r: Masks)
    requires numFrames > 0 && IsPermutation(perm, numPatches / numFrames)
    ensures |r.tube| == numFrames * (numPatches / numFrames) <= numPatches
    ensures |r.decoder| == numPatches
    ensures Count(r.tube) == numFrames * SliceBound(numPatches / numFrames, TubeKeep(numPatches, numFrames, tubeRatio))
    ensures forall j | 0 <= j < numPatches && r.decoder[j] :: j < |r.tube| && !r.tube[j]
  {
    var len := numPatches / numFrames;
    var base := BaseTubeMask(len, perm, TubeKeep(numPatches, numFrames, tubeRatio));
    var tube := Tile(base, numFrames);
    TileCount(base, numFrames);
    TileFits(numPatches, numFrames);
    var keep := Trunc(numPatches as real * (1.0 - decoderRatio));
    DecoderDisjointAll(numPatches, tube, keep);
    Masks(tube, DecoderMask(numPatches, tube, keep))
  }

  /** The frames of the tube mask fit inside the patch sequence. */
  lemma TileFits(numPatches: nat, numFrames: nat)
    requires numFrames > 0
    ensures numFrames * (numPatches / numFrames) <= numPatches
  {
  }

  /** `DecoderDisjoint` at every position. */
  lemma DecoderDisjointAll(numPatches: nat, tube: seq<bool>, keep: int)
    requires |tube| <= numPatches
    ensures forall j | 0 <= j < numPatches && DecoderMask(numPatches, tube, keep)[j] :: j < |tube| && !tube[j]
  {
    forall j | 0 <= j < numPatches && DecoderMask(numPatches, tube, keep)[j]
      ensures j < |tube| && !tube[j]
    {
      DecoderDisjoint(numPatches, tube, keep, j);
    }
  }

  /** The `(h, w)` loop with its running counter `i`: the label of every grid
      cell, in row-major order. */
  method ElectrodeLabels() returns (labels: seq<seq<string>>)
    ensures |labels| == 8 && forall h | 0 <= h < 8 :: |labels[h]| == 8
    ensures forall h, w | 0 <= h < 8 && 0 <= w < 8 :: labels[h][w] == ChannelName(8 * h + w)
  {
    labels := [];
    var i := 1;
    var h := 0;
    while h < 8
      invariant 0 <= h <= 8 && i == 8 * h + 1 && |labels| == h
      invariant forall g | 0 <= g < h :: |labels[g]| == 8
      invariant forall g, w | 0 <= g < h && 0 <= w < 8 :: labels[g][w] == ChannelName(8 * g + w)
    {
      var row := [];
      var w := 0;
      while w < 8
        invariant 0 <= w <= 8 && i == 8 * h + w + 1 && |row| == w
        invariant forall v | 0 <= v < w :: row[v] == ChannelName(8 * h + v)
      {
        row := row + ["G" + Digits(i)];
        i := i + 1;
        w := w + 1;
      }
      labels := labels + [row];
      h := h + 1;
    }
  }

  /** The label of cell `(h, w)` names the grid row the band tensor places in
      that cell, and distinct cells carry distinct labels. */
  lemma LabelMatchesCell<T>(x: seq<seq<seq<T>>>, t: nat, h: nat, w: nat, h': nat, w': nat)
    requires IsCube(x, |x|, 64, t) && h < 8 && w < 8 && h' < 8 && w' < 8
    requires ChannelName(8 * h + w) == ChannelName(8 * h' + w')
    ensures h == h' && w == w'
    ensures forall c, i | 0 <= c < |x| && 0 <= i < t :: Assemble(x, t)[c][i][0][h][w] == x[c][8 * h + w][i]
  {
    ChannelNameInjective(8 * h + w, 8 * h' + w');
    CellOfChannel(h, w);
    CellOfChannel(h', w');
  }
}

=== FILE: normalise.dfy ===
/** Per-channel normalisation of a chunk. Both loaders subtract the single
    constant `mean / std` from every sample of a channel (not the z-score
    `(x - mean) / std`); they differ in where `mean` and `std` come from and in
    how a zero standard deviation is treated. */
module Normalise {
  import opened Results
  import opened Signal

  /** `args.norm`: "sample", "hour", or anything else (the default "batch"),
      which leaves the chunk as it is. */
  datatype NormMode = PerSample | PerHour | Unnormalised

  function ParseNorm(s: string): (m: NormMode)
    ensures m == PerSample <==> s == "sample"
    ensures m == PerHour <==> s == "hour"
  {
    if s == "sample" then PerSample else if s == "hour" then PerHour else Unnormalised
  }

  /** One channel's entry of `get_signal_stats`: the dead channels hold the
      Python int `0` for both mean and std. */
  datatype ChannelStats = Dead | Measured(mean: real, std: real)

  const DeadChannels: set<nat> := {58, 59, 60}

  /** `get_signal_stats`: mean and std of each of the file's first 64 signals,
      except the three dead channels, which are not read. */
  function SignalStats(ops: SignalOps, signals: seq<seq<real>>): (stats: seq<ChannelStats>)
    requires |signals| >= 64
    ensures StatsLayout(stats)
    ensures forall i | 0 <= i < 64 && i !in DeadChannels ::
              stats[i].mean == Mean(signals[i]) && stats[i].std == ops.sqrt(Variance(signals[i]))
  {
    seq(64, i requires 0 <= i < 64 =>
      if i in DeadChannels then Dead else Measured(Mean(signals[i]), Std(ops, signals[i])))
  }

  /** The layout `get_signal_stats` produces: 64 entries, dead exactly at 58, 59, 60. */
  predicate StatsLayout(stats: seq<ChannelStats>) {
    |stats| == 64 && forall i | 0 <= i < 64 :: stats[i].Dead? <==> i in DeadChannels
  }

  /** Every sample of `row` lowered by `c`. */
  function Shift(row: seq<real>, c: real): (r: seq<real>)
    ensures |r| == |row|
    ensures forall t | 0 <= t < |row| :: r[t] == row[t] - c
  {
    seq(|row|, t requires 0 <= t < |row| => row[t] - c)
  }

  /** A shift keeps every difference between two samples of the row. */
  lemma ShiftKeepsDifferences(row: seq<real>, c: real)
    ensures forall t, u | 0 <= t < |row| && 0 <= u < |row| ::
              Shift(row, c)[t] - Shift(row, c)[u] == row[t] - row[u]
  {
  }

  /** `sample` mode, one channel: skip a zero-std row, otherwise subtract
      `np.mean(row) / np.std(row)`. */
  function NormaliseSampleRow(ops: SignalOps, row: seq<real>): (r: seq<Value>)
    requires ValidOps(ops)
    ensures |r| == |row|
    ensures forall t | 0 <= t < |row| :: r[t].Finite?
    ensures Variance(row) == 0.0 ==> r == Lift(row)
    ensures Variance(row) != 0.0 ==>
              forall t | 0 <= t < |row| :: r[t].x == row[t] - Mean(row) / Std(ops, row)
    ensures forall t, u | 0 <= t < |row| && 0 <= u < |row| :: r[t].x - r[u].x == row[t] - row[u]
  {
    if Variance(row) == 0.0 then Lift(row)
    else
      var c := Mean(row) / Std(ops, row);
      ShiftKeepsDifferences(row, c);
      Lift(Shift(row, c))
  }

  /** `hour` mode fails on a channel when the chunk row varies (so the guard
      does not skip it) but the channel's statistics are the int zeros. */
  predicate HourFails(row: seq<real>, stat: ChannelStats) {
    Variance(row) != 0.0 && stat.Dead?
  }

  /** `hour` mode, one channel: the guard tests the chunk's own std, the shift
      uses the recording's `means[ch] / stds[ch]`. A float std of zero gives
      nan or inf in every sample; the int zeros raise. */
  function NormaliseHourRow(row: seq<real>, stat: ChannelStats, ch: nat): (r: Result<seq<Value>>)
    ensures r.Err? <==> HourFails(row, stat)
    ensures r.Err? ==> r.error == ZeroDivision(ch)
    ensures r.Ok? ==> |r.value| == |row|
    ensures Variance(row) == 0.0 ==> r == Ok(Lift(row))
    ensures Variance(row) != 0.0 && stat.Measured? && stat.std == 0.0 ==>
              r == Ok(ZeroRow(|row|, NonFinite))
    ensures Variance(row) != 0.0 && stat.Measured? && stat.std != 0.0 ==>
              r.Ok? && forall t | 0 <= t < |row| :: r.value[t] == Finite(row[t] - stat.mean / stat.std)
  {
    if Variance(row) == 0.0 then Ok(Lift(row))
    else match stat
      case Dead => Err(ZeroDivision(ch))
      case Measured(m, s) =>
        if s == 0.0 then Ok(ZeroRow(|row|, NonFinite)) else Ok(Lift(Shift(row, m / s)))
  }

  /** The lowest channel from `from` on that makes `hour` mode raise. */
  predicate FirstHourFailure(chunk: seq<seq<real>>, stats: seq<ChannelStats>, from: nat, ch: nat)
    requires |stats| == |chunk|
  {
    from <= ch < |chunk| && HourFails(chunk[ch], stats[ch])
    && forall c | from <= c < ch :: !HourFails(chunk[c], stats[c])
  }

  /** `hour` mode over channels `from ..`, in loop order: the first failing
      channel aborts the chunk. */
  function HourRows(chunk: seq<seq<real>>, stats: seq<ChannelStats>, from: nat): (r: Result<seq<seq<Value>>>)
    requires |stats| == |chunk| && from <= |chunk|
    ensures r.Ok? <==> forall c | from <= c < |chunk| :: !HourFails(chunk[c], stats[c])
    ensures r.Err? ==> r.error.ZeroDivision? && FirstHourFailure(chunk, stats, from, r.error.channel)
    ensures r.Ok? ==> |r.value| == |chunk| - from
    ensures r.Ok? ==> forall c | from <= c < |chunk| ::
              r.value[c - from] == NormaliseHourRow(chunk[c], stats[c], c).value
    decreases |chunk| - from
  {
    if from == |chunk| then Ok([])
    else
      var row :- NormaliseHourRow(chunk[from], stats[from], from);
      var rest :- HourRows(chunk, stats, from + 1);
      Ok([row] + rest)
  }

  /** On a successful `hour` pass, a measured channel with a nonzero std
      whose chunk row varies is shifted by the recording's `mean / std`. */
  lemma HourShift(chunk: seq<seq<real>>, stats: seq<ChannelStats>, ch: nat, t: nat)
    requires |stats| == |chunk| && ch < |chunk| && t < |chunk[ch]|
    requires HourRows(chunk, stats, 0).Ok?
    requires Variance(chunk[ch]) != 0.0 && stats[ch].Measured? && stats[ch].std != 0.0
    ensures HourRows(chunk, stats, 0).value[ch][t] == Finite(chunk[ch][t] - stats[ch].mean / stats[ch].std)
  {
  }

  /** The normalisation step of test_loader.py on a 64-row chunk. */
  function NormaliseChunk(mode: NormMode, ops: SignalOps, stats: seq<ChannelStats>, chunk: seq<seq<real>>)
    : (r: Result<seq<seq<Value>>>)
    requires ValidOps(ops) && |chunk| == |stats| == 64
    ensures mode != PerHour ==> r.Ok?
    ensures r.Err? ==> r.error.ZeroDivision? && r.error.channel < 64 && stats[r.error.channel].Dead?
    ensures r.Err? && StatsLayout(stats) ==> r.error.channel in DeadChannels
    ensures r.Ok? ==> |r.value| == 64 && forall c | 0 <= c < 64 :: |r.value[c]| == |chunk[c]|
    ensures r.Ok? && mode == PerSample ==>
              forall c, t | 0 <= c < 64 && 0 <= t < |chunk[c]| :: r.value[c][t].Finite?
    ensures r.Ok? ==> forall c | 0 <= c < 64 && Variance(chunk[c]) == 0.0 :: r.value[c] == Lift(chunk[c])
  {
    match mode
    case PerSample => Ok(seq(64, c requires 0 <= c < 64 => NormaliseSampleRow(ops, chunk[c])))
    case PerHour => HourRows(chunk, stats, 0)
    case Unnormalised => Ok(seq(64, c requires 0 <= c < 64 => Lift(chunk[c])))
  }

  /** `hour` mode shifts a live channel by the statistics `get_signal_stats`
      computed from the file signal with the same index. */
  lemma HourUsesFileStats(ops: SignalOps, signals: seq<seq<real>>, chunk: seq<seq<real>>, ch: nat, t: nat)
    requires ValidOps(ops) && |signals| >= 64 && |chunk| == 64
    requires ch < 64 && ch !in DeadChannels && t < |chunk[ch]|
    requires NormaliseChunk(PerHour, ops, SignalStats(ops, signals), chunk).Ok?
    requires Variance(chunk[ch]) != 0.0 && Std(ops, signals[ch]) != 0.0
    ensures NormaliseChunk(PerHour, ops, SignalStats(ops, signals), chunk).value[ch][t]
            == Finite(chunk[ch][t] - Mean(signals[ch]) / Std(ops, signals[ch]))
  {
    var stats := SignalStats(ops, signals);
    assert stats[ch] == Measured(Mean(signals[ch]), Std(ops, signals[ch]));
    HourShift(chunk, stats, ch, t);
  }

  /** loader.py, one channel: no zero-std guard, so a constant row becomes
      nan or inf throughout. */
  function NormaliseUnguardedRow(ops: SignalOps, row: seq<real>): (r: seq<Value>)
    requires ValidOps(ops)
    ensures |r| == |row|
    ensures Variance(row) == 0.0 ==> forall t | 0 <= t < |row| :: r[t] == NonFinite
    ensures Variance(row) != 0.0 ==>
              forall t | 0 <= t < |row| :: r[t] == Finite(row[t] - Mean(row) / Std(ops, row))
  {
    if Variance(row) == 0.0 then ZeroRow(|row|, NonFinite)
    else Lift(Shift(row, Mean(row) / Std(ops, row)))
  }

  /** Corrected `hour` mode, one channel: also skips a channel whose recording
      statistics have a zero std, so no channel can raise or turn non-finite. */
  function NormaliseHourRowGuarded(row: seq<real>, stat: ChannelStats): (r: seq<Value>)
    ensures |r| == |row|
    ensures forall t | 0 <= t < |row| :: r[t].Finite?
    ensures Variance(row) == 0.0 || stat.Dead? || stat.std == 0.0 ==> r == Lift(row)
    ensures forall t, u | 0 <= t < |row| && 0 <= u < |row| :: r[t].x - r[u].x == row[t] - row[u]
  {
    if Variance(row) == 0.0 || stat.Dead? || stat.std == 0.0 then Lift(row)
    else Lift(Shift(row, stat.mean / stat.std))
  }

  /** As written, a dead channel whose chunk row varies makes `hour` mode
      raise; the corrected row function leaves it unchanged. */
  lemma DeadChannelDiscrepancy()
    ensures NormaliseHourRow([0.0, 1.0], Dead, 58) == Err(ZeroDivision(58))
    ensures NormaliseHourRowGuarded([0.0, 1.0], Dead) == Lift([0.0, 1.0])
  {
    var row := [0.0, 1.0];
    assert Sum(row[..1]) == 0.0;
    assert Mean(row) == 0.5;
    assert row[..1][..0] == [];
    assert SquaredDeviation(row, 0.5) == 0.5;
  }
}

=== FILE: pynum.dfy ===
/** The pieces of Python integer and slicing semantics the pipeline relies on. */
module PyNum {

  /** Python's `int(x)` on a float: truncation toward zero. */
  function Trunc(x: real): (r: int)
    ensures 0.0 <= x ==> 0 <= r && r as real <= x < r as real + 1.0
    ensures x < 0.0 ==> r <= 0 && r as real - 1.0 < x <= r as real
  {
    if x >= 0.0 then x.Floor else -((-x).Floor)
  }

  /** The least integer not below `x`. */
  function Ceil(x: real): (r: int)
    ensures r as real - 1.0 < x <= r as real
  {
    -((-x).Floor)
  }

  predicate IsIntegral(x: real) {
    x.Floor as real == x
  }

  lemma CeilOfIntegral(x: real)
    requires IsIntegral(x)
    ensures Ceil(x) as real == x && Trunc(x) as real == x
  {
  }

  /** A fractional `x` lies strictly below its ceiling. */
  lemma CeilAboveFractional(x: real)
    requires !IsIntegral(x)
    ensures x < Ceil(x) as real
  {
    assert x.Floor as real != x;
  }

  /** Where a Python slice bound `k` lands in a sequence of length `n`. */
  function SliceBound(n: nat, k: int): (r: nat)
    ensures r <= n
  {
    if k < 0 then (if n + k < 0 then 0 else n + k) else if k <= n then k else n
  }

  /** Python `s[:k]`. */
  function Prefix<T>(s: seq<T>, k: int): seq<T> {
    s[..SliceBound(|s|, k)]
  }

  /** Python `s[k:]`. */
  function Suffix<T>(s: seq<T>, k: int): seq<T> {
    s[SliceBound(|s|, k)..]
  }

  function Min(a: int, b: int): int {
    if a <= b then a else b
  }

  function Max(a: int, b: int): int {
    if a <= b then b else a
  }

  /** `[lo, lo + 1, ..., hi - 1]`, Python's `range(lo, hi)`. */
  function Range(lo: nat, hi: nat): (r: seq<nat>)
    ensures |r| == if lo <= hi then hi - lo else 0
    ensures forall i | 0 <= i < |r| :: r[i] == lo + i
    decreases hi - lo
  {
    if hi <= lo then [] else [lo] + Range(lo + 1, hi)
  }

  /** No element occurs twice. */
  predicate Distinct<T(==)>(s: seq<T>) {
    forall i, j | 0 <= i < j < |s| :: s[i] != s[j]
  }

  /** `p` lists each of `0 .. n-1` exactly once, as `randperm(n)` and
      `DataFrame.sample(frac=1)` do. */
  predicate IsPermutation(p: seq<nat>, n: nat) {
    |p| == n && Distinct(p) && forall i | 0 <= i < n :: p[i] < n
  }

  /** `s` reordered by `p`: position `i` takes `s[p[i]]`. */
  function Permute<T>(s: seq<T>, p: seq<nat>): (r: seq<T>)
    requires IsPermutation(p, |s|)
    ensures |r| == |s|
  {
    seq(|s|, i requires 0 <= i < |s| => s[p[i]])
  }

  /** Reordering by a permutation keeps every element, with its multiplicity. */
  lemma {:induction false} PermutePreservesMultiset<T>(s: seq<T>, p: seq<nat>)
    requires IsPermutation(p, |s|)
    ensures multiset(Permute(s, p)) == multiset(s)
  {
    if |s| > 0 {
      var n := |s|;
      var v := p[n - 1];
      var rest := s[..v] + s[v + 1..];
      var q := seq(n - 1, i requires 0 <= i < n - 1 => if p[i] < v then p[i] else p[i] - 1);
      forall i, j | 0 <= i < j < n - 1
        ensures q[i] != q[j]
      {
        assert p[i] != v && p[j] != v && p[i] != p[j];
      }
      assert IsPermutation(q, |rest|);
      PermutePreservesMultiset(rest, q);
      assert Permute(s, p) == Permute(rest, q) + [s[v]];
      assert s == s[..v] + [s[v]] + s[v + 1..];
    }
  }
}

=== FILE: results.dfy ===
/** Failure-compatible result type used wherever the pipeline can raise. */
module Results {

  /** The exceptions the modelled code can raise on its own inputs. */
  datatype Error =
    | ZeroDivision(channel: nat)  // Python `0 / 0` on an int statistic
    | BadBand(band: nat)          // scipy rejects a normalised band edge outside (0, 1)
    | NoBands                     // an empty band list leaves no axis 2 to filter along
    | EmptyResample               // scipy's resample rejects a target length of 0

  datatype Result<+T> = Ok(value: T) | Err(error: Error) {

    predicate IsFailure() {
      Err?
    }

    function PropagateFailure<U>(): Result<U>
      requires Err?
    {
      Err(error)
    }

    function Extract(): T
      requires Ok?
    {
      value
    }
  }
}

=== FILE: signal.dfy ===
/** Sample values, per-row statistics and the opaque signal-processing kernels. */
module Signal {

  /** A float64 sample: a real number, or nan/inf after a division by zero. */
  datatype Value = Finite(x: real) | NonFinite

  function Lift(row: seq<real>): (r: seq<Value>)
    ensures |r| == |row|
    ensures forall t | 0 <= t < |row| :: r[t] == Finite(row[t])
  {
    seq(|row|, t requires 0 <= t < |row| => Finite(row[t]))
  }

  function Sum(s: seq<real>): real {
    if |s| == 0 then 0.0 else Sum(s[..|s| - 1]) + s[|s| - 1]
  }

  /** `np.mean`; an empty row only occurs where its value is never used. */
  function Mean(s: seq<real>): real {
    if |s| == 0 then 0.0 else Sum(s) / |s| as real
  }

  function SquaredDeviation(s: seq<real>, m: real): (r: real)
    ensures 0.0 <= r
  {
    if |s| == 0 then 0.0
    else
      var d := s[|s| - 1] - m;
      SquareNonNegative(d);
      SquaredDeviation(s[..|s| - 1], m) + d * d
  }

  lemma SquareNonNegative(d: real)
    ensures 0.0 <= d * d
  {
    if d < 0.0 {
      assert d * d == (-d) * (-d);
    }
  }

  /** Population variance, the square of `np.std`. */
  function Variance(s: seq<real>): (r: real)
    ensures 0.0 <= r
  {
    if |s| == 0 then 0.0 else SquaredDeviation(s, Mean(s)) / |s| as real
  }

  /** A row of `k` zeros of some sample type. */
  function ZeroRow<T>(k: nat, zero: T): (r: seq<T>)
    ensures |r| == k && forall t | 0 <= t < k :: r[t] == zero
  {
    seq(k, _ => zero)
  }

  lemma {:induction false} SumOfZeros(k: nat)
    ensures Sum(ZeroRow(k, 0.0)) == 0.0
  {
    if k > 0 {
      assert ZeroRow(k, 0.0)[..k - 1] == ZeroRow(k - 1, 0.0);
      SumOfZeros(k - 1);
    }
  }

  lemma {:induction false} SquaredDeviationOfZeros(k: nat)
    ensures SquaredDeviation(ZeroRow(k, 0.0), 0.0) == 0.0
  {
    if k > 0 {
      assert ZeroRow(k, 0.0)[..k - 1] == ZeroRow(k - 1, 0.0);
      SquaredDeviationOfZeros(k - 1);
    }
  }

  /** An all-zero row has zero standard deviation, so the zero-std guards skip it. */
  lemma ZeroRowHasNoVariance(k: nat)
    ensures Mean(ZeroRow(k, 0.0)) == 0.0 && Variance(ZeroRow(k, 0.0)) == 0.0
  {
    SumOfZeros(k);
    SquaredDeviationOfZeros(k);
  }

  /** The numerical kernels the pipeline calls into, left abstract. Each
      gives one output sample, so every derived row has its shape by
      construction:
      - `sqrt(v)`: the square root behind `np.std`;
      - `filter(low, high, row, t)`: sample `t` of `sosfilt` applied to `row`
        with a 4th-order Butterworth band-pass at normalised edges `low, high`;
      - `envelope(row, t)`: sample `t` of `abs(hilbert(row))`;
      - `resample(row, m, t)`: sample `t` of the Fourier resampling of `row`
        to `m` points. */
  datatype SignalOps = SignalOps(
    sqrt: real -> real,
    filter: (real, real, seq<Value>, nat) -> Value,
    envelope: (seq<Value>, nat) -> Value,
    resample: (seq<Value>, nat, nat) -> Value)

  /** The only property of the kernels the model needs: a positive variance
      has a positive square root, so `mean / std` is defined. */
  ghost predicate ValidOps(ops: SignalOps) {
    forall v: real :: 0.0 < v ==> 0.0 < ops.sqrt(v)
  }

  /** `np.std` of a row. */
  function Std(ops: SignalOps, s: seq<real>): real {
    ops.sqrt(Variance(s))
  }
}

=== FILE: testloader.dfy ===
/** `ECoGDataset.sample_data` of test_loader.py: read chunk `index`, pad it
    to two seconds, place it on the 64-channel grid, normalise it, and turn
    it into the band tensor. */
module TestLoader {
  import opened Results
  import opened PyNum
  import opened Signal
  import opened Chunking
  import opened GridMap
  import opened Normalise
  import opened Assembly
  import opened Iteration

  /** The dataset's settings: `fs` and `new_fs` in Hz (ints in `dl_setup`
      and the argument parser), `args.bands`, `args.norm`, `args.env`. */
  datatype Config = Config(fs: nat, newFs: nat, bands: seq<Band>, norm: NormMode, env: bool)

  /** An EDF file as the loader sees it: every signal it stores, in file
      order, and the channel names MNE reports. */
  datatype EdfFile = EdfFile(signals: seq<seq<real>>, chNames: seq<string>)

  /** At least the 65 signals the reads touch, all of one length. */
  predicate ValidFile(f: EdfFile) {
    |f.signals| >= 65 && forall i | 0 <= i < |f.signals| :: |f.signals[i]| == |f.signals[0]|
  }

  /** `picks = np.linspace(1, 64, 64).astype(int)`: file signals 1 to 64. */
  function Picks(f: EdfFile): (rec: seq<seq<real>>)
    requires ValidFile(f)
    ensures IsRecording(rec) && NumSamples(rec) == |f.signals[0]|
    ensures forall k | 0 <= k < 64 :: rec[k] == f.signals[k + 1]
  {
    f.signals[1..65]
  }

  /** `n_samples = int(2 * fs)`. */
  function ChunkLength(fs: nat): nat {
    2 * fs
  }

  /** The chunk on the grid before normalisation: read, zero-padded to
      `n_samples` columns, insert-and-shift with zero rows. */
  function RawGrid(f: EdfFile, fs: nat, index: nat): (g: seq<seq<real>>)
    requires ValidFile(f)
    ensures IsMatrix(g, 64, ChunkLength(fs))
  {
    var n := ChunkLength(fs);
    var w := ReadWindow(Picks(f), WindowStart(n, index), n);
    var p := PadChunk(w, n, 0.0);
    var g := Grid(p, f.chNames, ZeroRow(n, 0.0));
    assert forall i | 0 <= i < 64 :: g[i] == GridRow(p, f.chNames, ZeroRow(n, 0.0), i);
    g
  }

  /** Cell `(i, t)` of the raw grid: sample `start + t` of the file row that
      lands on grid row `i` while the read lasts, zero in the padding, zero
      throughout for a channel the file lacks. */
  lemma RawGridCells(f: EdfFile, fs: nat, index: nat, i: nat, t: nat)
    requires ValidFile(f) && i < 64 && t < ChunkLength(fs)
    ensures var n, start := ChunkLength(fs), WindowStart(ChunkLength(fs), index);
            var read := |ReadWindow(Picks(f), start, n)[0]|;
            var g := RawGrid(f, fs, index);
            && (!Present(f.chNames, i) ==> g[i][t] == 0.0)
            && (Present(f.chNames, i) && t < read ==>
                  g[i][t] == f.signals[PresentBefore(f.chNames, i) + 1][start + t])
            && (Present(f.chNames, i) && read <= t ==> g[i][t] == 0.0)
  {
    var n, start := ChunkLength(fs), WindowStart(ChunkLength(fs), index);
    var w := ReadWindow(Picks(f), start, n);
    var p := PadChunk(w, n, 0.0);
    var g := RawGrid(f, fs, index);
    assert g[i] == GridRow(p, f.chNames, ZeroRow(n, 0.0), i);
    if Present(f.chNames, i) {
      var k := PresentBefore(f.chNames, i);
      assert g[i] == p[k];
      if t < |w[0]| {
        assert p[k][t] == w[k][t] == Picks(f)[k][start + t];
      }
    }
  }

  /** `sample_data` up to the band extraction; `stats` is what `__init__`
      stored from `get_signal_stats` (used in `hour` mode only). */
  function NormalisedGrid(ops: SignalOps, cfg: Config, f: EdfFile, index: nat): (r: Result<seq<seq<Value>>>)
    requires ValidOps(ops) && ValidFile(f)
    ensures r.Ok? ==> IsMatrix(r.value, 64, ChunkLength(cfg.fs))
    ensures cfg.norm != PerHour ==> r.Ok?
    ensures r.Err? ==> r.error.ZeroDivision? && r.error.channel in DeadChannels
  {
    var g := RawGrid(f, cfg.fs, index);
    NormaliseChunk(cfg.norm, ops, SignalStats(ops, f.signals), g)
  }

  /** A channel the file lacks stays an all-zero, finite row whatever the
      normalisation mode: the zero-std guard skips it. */
  lemma MissingChannelStaysZero(ops: SignalOps, cfg: Config, f: EdfFile, index: nat, i: nat)
    requires ValidOps(ops) && ValidFile(f) && i < 64 && !Present(f.chNames, i)
    requires NormalisedGrid(ops, cfg, f, index).Ok?
    ensures NormalisedGrid(ops, cfg, f, index).value[i] == ZeroRow(ChunkLength(cfg.fs), Finite(0.0))
  {
    var n := ChunkLength(cfg.fs);
    var g := RawGrid(f, cfg.fs, index);
    forall t | 0 <= t < n
      ensures g[i][t] == 0.0
    {
      RawGridCells(f, cfg.fs, index, i, t);
    }
    assert g[i] == ZeroRow(n, 0.0);
    ZeroRowHasNoVariance(n);
  }

  /** `sample` mode keeps, on every grid row, every difference between two
      samples: only a per-row constant is subtracted. */
  lemma SampleModeKeepsDifferences(ops: SignalOps, cfg: Config, f: EdfFile, index: nat, i: nat, t: nat, u: nat)
    requires ValidOps(ops) && ValidFile(f) && cfg.norm == PerSample
    requires i < 64 && t < ChunkLength(cfg.fs) && u < ChunkLength(cfg.fs)
    ensures var r := NormalisedGrid(ops, cfg, f, index);
            var g := RawGrid(f, cfg.fs, index);
            r.Ok? && r.value[i][t].Finite? && r.value[i][u].Finite?
            && r.value[i][t].x - r.value[i][u].x == g[i][t] - g[i][u]
  {
    var g := RawGrid(f, cfg.fs, index);
    var r := NormalisedGrid(ops, cfg, f, index);
    assert r.value[i] == NormaliseSampleRow(ops, g[i]);
  }

  /** `n_new_samples = int(2 * new_fs)`. */
  function OutLength(newFs: nat): nat {
    2 * newFs
  }

  /** `sample_data`: the tensor of shape `(len(bands), n_new_samples, 1, 8, 8)`,
      or the error Python raises: a `ZeroDivisionError` in `hour` mode on a
      dead channel, the filter design rejecting a band, or the resampling
      rejecting `n_new_samples = 0`. */
  function SampleData(ops: SignalOps, cfg: Config, f: EdfFile, index: nat)
    : (r: Result<seq<seq<seq<seq<seq<Value>>>>>>)
    requires ValidOps(ops) && ValidFile(f) && cfg.fs > 0
    ensures r.Ok? ==> IsTensor(r.value, |cfg.bands|, OutLength(cfg.newFs))
    ensures cfg.norm != PerHour ==> (r.Ok? <==> BandsUsable(cfg.bands, cfg.fs) && cfg.newFs > 0)
    ensures r.Err? && r.error.ZeroDivision? ==> cfg.norm == PerHour && r.error.channel in DeadChannels
    ensures r.Err? && r.error.EmptyResample? ==> cfg.newFs == 0 && BandsUsable(cfg.bands, cfg.fs)
    ensures r.Err? && !r.error.ZeroDivision? && !r.error.EmptyResample? ==> !BandsUsable(cfg.bands, cfg.fs)
  {
    var g :- NormalisedGrid(ops, cfg, f, index);
    BandTensor(ops, cfg.fs, cfg.bands, cfg.env, g, OutLength(cfg.newFs))
  }

  /** Cell `(h, w)` of band `c` is grid row `8h + w` of the normalised chunk
      after that band's filter, the optional envelope and the resampling. */
  lemma SampleDataCells(ops: SignalOps, cfg: Config, f: EdfFile, index: nat, c: nat, i: nat, h: nat, w: nat)
    requires ValidOps(ops) && ValidFile(f) && cfg.fs > 0
    requires SampleData(ops, cfg, f, index).Ok?
    requires c < |cfg.bands| && i < OutLength(cfg.newFs) && h < 8 && w < 8
    ensures NormalisedGrid(ops, cfg, f, index).Ok?
    ensures SampleData(ops, cfg, f, index).value[c][i][0][h][w]
            == StageRow(ops, cfg.fs, cfg.bands[c], cfg.env,
                        NormalisedGrid(ops, cfg, f, index).value[8 * h + w], OutLength(cfg.newFs))[i]
  {
    var g := NormalisedGrid(ops, cfg, f, index).value;
    BandTensorCells(ops, cfg.fs, cfg.bands, cfg.env, g, OutLength(cfg.newFs));
  }

  /** Chunk windows against a recording of `fs * Duration` samples: every
      chunk a pass from a fresh dataset asks for (`FreshPass`: the indices
      below `ceil(Duration / 2)`) starts inside the
      recording, and its window is short (so gets zero-padded) exactly when
      `index + 1` passes `Duration / 2`. With a whole-number `Duration / 2`
      no window is short; otherwise the last one is. */
  lemma PassWindows(fs: nat, duration: real, len: nat, index: nat)
    requires fs > 0 && 0.0 <= duration && len as real == fs as real * duration
    requires index in PassIndices(Fresh(duration))
    ensures WindowStart(ChunkLength(fs), index) < len
    ensures WindowStart(ChunkLength(fs), index) + ChunkLength(fs) <= len
            <==> (index + 1) as real <= duration / 2.0
    ensures IsIntegral(duration / 2.0) ==> WindowStart(ChunkLength(fs), index) + ChunkLength(fs) <= len
    ensures !IsIntegral(duration / 2.0) && index + 1 == Ceil(duration / 2.0) ==>
              len < WindowStart(ChunkLength(fs), index) + ChunkLength(fs)
  {
    PassIndexBelowBound(duration, index);
    var half := duration / 2.0;
    SampleOffsets(fs, duration, len, index);
    SampleOffsets(fs, duration, len, index + 1);
    assert WindowStart(ChunkLength(fs), index + 1) == WindowStart(ChunkLength(fs), index) + ChunkLength(fs);
    assert (index as real) < half;
    if IsIntegral(half) {
      CeilOfIntegral(half);
    } else if index + 1 == Ceil(half) {
      CeilAboveFractional(half);
    }
  }

  /** The first sample of chunk `k` lies below the recording's end exactly
      when `k` lies below `Duration / 2`, and at the end exactly when `k`
      equals it. */
  lemma SampleOffsets(fs: nat, duration: real, len: nat, k: nat)
    requires fs > 0 && len as real == fs as real * duration
    ensures WindowStart(ChunkLength(fs), k) < len <==> (k as real) < duration / 2.0
    ensures WindowStart(ChunkLength(fs), k) <= len <==> (k as real) <= duration / 2.0
  {
    var d := 2.0 * fs as real;
    var half := duration / 2.0;
    assert WindowStart(ChunkLength(fs), k) as real == d * k as real by {
      CastProduct(ChunkLength(fs), k);
    }
    assert len as real == d * half by {
      HalfScale(fs as real, duration);
    }
    WindowOrder(d, k as real, half, len as real);
  }

  lemma HalfScale(f: real, x: real)
    ensures (2.0 * f) * (x / 2.0) == f * x
  {
  }

  lemma CastProduct(a: nat, b: nat)
    ensures (a * b) as real == a as real * b as real
  {
  }

  /** Scaling by a positive rate on the left keeps both orders. */
  lemma ScaleLeft(x: real, y: real, d: real)
    requires 0.0 < d
    ensures x < y <==> d * x < d * y
    ensures x <= y <==> d * x <= d * y
  {
    assert d * y - d * x == d * (y - x);
    if x < y {
      assert 0.0 < d * (y - x);
    } else {
      assert 0.0 <= d * (x - y);
    }
    if x <= y {
      assert 0.0 <= d * (y - x);
    } else {
      assert 0.0 < d * (x - y);
    }
  }

  /** For a positive rate `d`, sample offsets compare as the times do. */
  lemma WindowOrder(d: real, i: real, half: real, len: real)
    requires 0.0 < d && len == d * half
    ensures d * i < len <==> i < half
    ensures d * i <= len <==> i <= half
  {
    ScaleLeft(i, half, d);
  }

  /** With every channel present, grid row `ch` holds file signal `ch + 1`
      (the picks start at 1) for as long as the recording lasts, while
      `hour` mode shifts that row by the statistics of file signal `ch`
      (`Normalise.HourUsesFileStats`). */
  lemma AllPresentRow(f: EdfFile, fs: nat, index: nat, ch: nat, t: nat)
    requires ValidFile(f) && ch < 64 && t < ChunkLength(fs)
    requires forall j | 0 <= j < 64 :: Present(f.chNames, j)
    requires WindowStart(ChunkLength(fs), index) + t < |f.signals[0]|
    ensures RawGrid(f, fs, index)[ch][t] == f.signals[ch + 1][WindowStart(ChunkLength(fs), index) + t]
  {
    AllPresentCount(f.chNames, ch);
    RawGridCells(f, fs, index, ch, t);
  }
}
